=== FILE: README.md ===
# Cypress MCP server: command-handling core in Dafny

This project models the decision layer of the Cypress MCP server. It has
two parts:

- **The configuration manager** (`src/config.js`). It holds the built-in
  defaults and merges a YAML configuration file over them section by
  section. The merged object goes through the configuration schema, and any
  failure falls back to the defaults. The manager answers section reads and
  the command allow-list check.
- **The command handler** (`src/cypress-handler.js`). It gates every
  command on the allow-list and dispatches to seven commands:
  - `run` merges caller options over the configured defaults, drops
    `undefined` keys, calls the test runner library and records the
    result under a run id.
  - `open` builds the interactive runner's options and opens it.
  - `validate` checks test code heuristically and only ever warns.
  - `generate` fills in a test template.
  - `getResults` reads the in-memory result store.
  - `getScreenshots` and `getVideos` filter the artifact directories.

Files:

- `js_value.dfy` (module `Js`): the JavaScript value semantics the core
  relies on. This covers values, property reads, `??`, `||`, object spread,
  string conversion and `includes`.
- `config.dfy` (module `Configuration`): defaults, merge, schema, loader and
  the immutable `ConfigManager` record.
- `cypress_handler.dfy` (module `Handler`): option building and the
  `DropUndefined` loop, the insertion-ordered `Store`, the validator, the
  generator, the artifact scans, and the `CypressHandler` class. The class
  holds its `testResults` store as a mutable field and dispatches through
  `ExecuteCommand`.

The outside world is the `Handler.Host` value. It supplies the clock
(`Date.now()`), the working directory, `cypress.run`, `cypress.open`, file
reads and writes, `path.join`, `path.relative` and the recursive directory
listing. A listing is a sequence of `(name, isFile, size)` entries, or
nothing when the directory does not exist. A failing outside call yields the
message it threw, and the handler passes that message on unchanged. The
configuration file reaches the loader as a `ConfigSource`: no file, an
unreadable file, a malformed file, or a parsed YAML document.

- A run calls the `cypress` library's `run()` and records the summary
  fields of its result. No process is spawned, no exit code is read and no
  output is truncated.
- Opening the interactive runner answers `success: true` whenever
  `cypress.open` resolves.

## Model

| member | source | states |
|---|---|---|
| Js.Member | src/config.js:79-81 | reading a property of a value throws exactly when the value is null or undefined |
| Js.Coalesce | src/cypress-handler.js:61-70 | `a ?? b` is `b` exactly when `a` is null or undefined, otherwise `a` |
| Js.Or | src/cypress-handler.js:73-74 | the logical-or operator yields its left operand when that is truthy, otherwise its right operand |
| Js.Spread | src/cypress-handler.js:71 | spreading an object copies its fields; spreading null, undefined, a boolean or a number copies nothing |
| Js.SpreadNamedKey | src/config.js:79-81 | spreading a non-object (such as a string or array section) never contributes a named key |
| Js.NatToStringInjective | src/cypress-handler.js:58 | different clock readings print as different decimal strings |
| Configuration.ParseBrowser | src/config.js:14 | a browser name is accepted exactly when it is one of chrome, firefox, edge, electron |
| Configuration.MergeConfigs | src/config.js:77-83 | merging fails (TypeError) exactly when the parsed document is null or undefined; otherwise the result has exactly the sections cypress, mcp and security |
| Configuration.MergeKeys | src/config.js:77-83 | in each section a key the file gives takes the file's value; any other key keeps the default, and no other key appears |
| Configuration.ParseConfig | src/config.js:11-31 | a merged object passes the schema only when all three sections are present |
| Configuration.CypressFields | src/config.js:12-22 | the schema keeps a string browser as that browser, a boolean headless, a string projectPath or baseUrl, and a number for each of the two viewport sizes and three timeouts as given, and leaves each of these nine unset when the merged section lacks it; every present cypress field survives the check |
| Configuration.McpFields | src/config.js:23-26 | a string name or version is kept as given, and an absent one stays unset |
| Configuration.SecurityFields | src/config.js:27-30 | an allow-list array is kept as its strings and a number maxExecutionTime as given; absent fields stay unset and present ones survive the schema check |
| Configuration.DefaultsPassSchema | src/config.js:42-60 | the defaults literal passes the schema as chrome, headless, 1280x720, timeouts 4000/5000/30000, name cypress-mcp-server 1.0.0, allow-list `['*']`, 300000 ms |
| Configuration.LoadConfig | src/config.js:38-75 | with no file, a read or parse failure, or a null or undefined document, the result is the defaults; a merged document the schema rejects (a wrong type in any field, an unknown browser) also gives the defaults; a merged document the schema accepts gives exactly the schema's reading of it |
| Configuration.LoadConfigFallback | src/config.js:62-74 | with no file, an unreadable file, a malformed file or an empty document, the configuration equals the defaults |
| Configuration.UnknownBrowserFallsBack | src/config.js:14 | a file naming a browser outside the four rejects the whole file, so the defaults apply |
| Configuration.LoadedFieldsFollowFile | src/config.js:62-67 | for a file that passes the schema, the browser, headless and allow-list fields come from the file when given and from the defaults when absent; a string projectPath or baseUrl comes from the file, and an absent one stays unset |
| Configuration.LoadedNumbersFollowFile | src/config.js:42-67 | for a file that passes the schema, each viewport size and timeout is the file's number when given, else 1280, 720, 4000, 5000 or 30000 |
| Configuration.LoadedServerFieldsFollowFile | src/config.js:52-67 | for a file that passes the schema, the server name, version and maxExecutionTime are the file's when given, else cypress-mcp-server, 1.0.0 and 300000 |
| Configuration.LoadedConfigComplete | src/config.js:38-75 | every configuration loaded from a YAML document, or from nothing, has all eleven defaulted fields |
| Configuration.ConfigManager.Get | src/config.js:85-87 | a section read succeeds exactly for cypress, mcp and security |
| Configuration.ConfigManager.GetCypressConfig | src/config.js:89-91 | equals `get('cypress')` |
| Configuration.ConfigManager.GetSecurityConfig | src/config.js:93-95 | equals `get('security')` |
| Configuration.ConfigManager.IsCommandAllowed | src/config.js:97-100 | a command is allowed exactly when the allow-list contains `'*'` or the command verbatim |
| Configuration.NewConfigManager | src/config.js:34-36 | the manager holds the loaded configuration, which is complete |
| Configuration.DefaultsAllowEverything | src/config.js:57 | with the built-in defaults every command is allowed |
| Handler.MessagesNameTheirSubject | src/cypress-handler.js:24-26 | the refusal, unknown-command and missing-result messages contain the command or run id |
| Handler.GetWithoutUndefined | src/cypress-handler.js:77-82 | deleting undefined-valued keys changes no property read, and a key survives exactly when its value is not undefined |
| Handler.DropUndefined | src/cypress-handler.js:77-82 | the delete loop over the object's keys leaves exactly the keys whose values are not undefined, with their values |
| Handler.RunOptionsMerge | src/cypress-handler.js:60-82 | headless and browser are the caller's unless null or undefined, else the config's; spec is the caller's; config is the merged config object; env is the caller's when truthy, else `{}`; project is the caller's when truthy, else projectPath |
| Handler.HeadlessPrecedence | src/cypress-handler.js:61 | a caller's `headless: false` beats a configured `true`; a null or absent caller value takes the configured one |
| Handler.RunConfigOverride | src/cypress-handler.js:64-72 | inside `config`, the caller's config keys win (baseUrl included); otherwise each of the six fields is the caller's value unless null or undefined, else the config's |
| Handler.RunOptionsKeys | src/cypress-handler.js:60-82 | with a loaded configuration, headless, browser, config and env are always passed; spec and project are passed exactly when defined; no other key is passed |
| Handler.OpenOptionsMerge | src/cypress-handler.js:128-143 | the interactive runner's browser is the caller's unless null or undefined, else the config's; its config is the coalesced baseUrl under the caller's config keys; env and project follow the run's rules; spec and headless are never passed |
| Handler.OpenOptionsMatchRun | src/cypress-handler.js:128-136 | the interactive runner gets the same browser, env and project as a run with the same arguments, and its config the same baseUrl |
| Handler.OpenOutcome | src/cypress-handler.js:147-159 | opening succeeds exactly when `cypress.open` resolves, answering success and the fixed message; otherwise it fails with the library's own message |
| Handler.RunIdsDiffer | src/cypress-handler.js:58 | run ids taken at different milliseconds differ |
| Handler.RunOutcome | src/cypress-handler.js:86-119 | a run fails exactly when the library throws, with the library's own message; otherwise it answers the record built from the library result's summary fields under `run_<now>`, successful iff status is `'finished'` and totalFailed is 0 |
| Handler.Store.Values | src/cypress-handler.js:264 | listing all results yields one record per stored id, in insertion order |
| Handler.EmptyStore | src/cypress-handler.js:14 | a new store is well formed and lists nothing |
| Handler.SetKeepsStore | src/cypress-handler.js:89-102 | recording a run keeps the store well formed; its id then finds that record and every other id finds what it found before |
| Handler.ValuesAfterSet | src/cypress-handler.js:89-102 | a new run id is listed after all earlier ones; a repeated id is overwritten in place |
| Handler.QueryResults | src/cypress-handler.js:252-265 | a truthy run id finds exactly its stored record, or fails with "No results found"; without one, all records come back in insertion order |
| Handler.RecordedRunIsRetrievable | src/cypress-handler.js:89-102 | a record stored under a run id of the form `run_<now>` is found again by that id, and the store stays well formed |
| Handler.ValidationWarnings | src/cypress-handler.js:165-209 | validation fails for want of input exactly when neither testFile nor testCode is truthy; a failed read of a truthy testFile fails with that read's error; code that is neither a string nor an array fails with the TypeError `code.includes is not a function`; otherwise, once the code is read and is a string or array, it is valid with no errors, and each warning appears exactly when all of its markers are absent; no other warning ever appears, so code with both markers has no warnings |
| Handler.PlainCodeDrawsWarnings | tests/unit/cypress-handler.test.js:26-31 | `const x = 1;` is valid but draws both warnings |
| Handler.GenerateTest | src/cypress-handler.js:219-247 | generating fails with "Description is required" exactly when the description is falsy; otherwise the code holds `describe('<name>'` and the description; without an outputPath it succeeds with outputPath null; with one, a successful write gives success with that path and the code written, and a failed write fails with the write's own message |
| Handler.TemplateMentions | src/cypress-handler.js:228-235 | the template contains the quoted suite name, the description, `describe(` and `cy.visit` |
| Handler.GeneratedTestValidatesCleanly | src/cypress-handler.js:228-235 | generated code passes the validator with no warnings |
| Handler.CollectedMembers | src/cypress-handler.js:283-294 | an artifact is collected exactly when some kept directory entry yields it |
| Handler.CollectedAppend | src/cypress-handler.js:283-294 | the scan keeps listing order |
| Handler.ScreenshotsFilter | src/cypress-handler.js:270-297 | a missing directory gives no screenshots; a screenshot is returned exactly when an image file of the listing passes the filter (no runId, a name containing the runId, no testPath, or a name containing the testPath); so without a testPath every image file is returned, whatever the runId |
| Handler.VideosFilter | src/cypress-handler.js:302-329 | a missing directory gives no videos; a video is returned exactly when an `.mp4` file of the listing has no runId to match or a name containing the runId; so every `.mp4` file whose name contains the runId is returned, and without a runId every `.mp4` file is |
| Handler.CypressHandler.constructor | src/cypress-handler.js:12-15 | a new handler starts with an empty result store |
| Handler.CypressHandler.ExecuteCommand | src/cypress-handler.js:20-51 | a command outside the allow-list is refused and nothing runs; an allowed unknown name fails; each of the seven commands answers its handler's result or error unchanged; only `run` changes the store |
| Handler.CypressHandler.RunTests | src/cypress-handler.js:56-120 | answers the run's outcome; on success the store gains the record under its run id, with every other entry unchanged; on failure the store is unchanged |
| Handler.CypressHandler.OpenCypress | src/cypress-handler.js:125-160 | answers the open outcome for the built options |
| Handler.CypressHandler.ValidateTest | src/cypress-handler.js:165-214 | the warning pushes produce the validation outcome |
| Handler.CypressHandler.GetScreenshots | src/cypress-handler.js:270-297 | the loop returns the kept image files in listing order |
| Handler.CypressHandler.GetVideos | src/cypress-handler.js:302-329 | the loop returns the kept videos in listing order |

## Left out

- The MCP server glue in `src/index.js` and the logger in `src/logger.js` are not part of this model. They are the protocol layer (tool-name routing to the seven commands, JSON wrapping, error payloads) and the logger setup; none of it changes what the handler computes.
- `activeRuns` (src/cypress-handler.js:13) is never read or written after construction.
- Async/await: every handler runs to completion before its answer is used, so the model is sequential.
- Numbers are integers. Fractions, NaN, Infinity and -0 are not modelled, so the `=== 0` check on totalFailed and the numeric schema fields are exact. The integers are also unbounded: the rounding of JavaScript numbers above 2^53 is not modelled, and `IntToString` always prints plain decimal digits where `String(n)` switches to exponent form (`1e+21`) once the magnitude reaches 1e21. That reaches the generated template text for a numeric testName or description, the `No results found` message and the runId substring filters for screenshots and videos.
- Strings are sequences of characters, not UTF-16 code units. Case-insensitive extension matching folds ASCII letters only.
- Property reads see own properties only. Inherited prototype properties are not modelled.
- Object key order is not modelled, except where it shows: the result store's listing order.
- The internals of `cypress.run` and `cypress.open` are left to the host. A run's library result is taken to be an object; a null result would throw on reading `status`, and that is not modelled.
- `fs.existsSync`, `readdirSync` and `statSync` are one listing function. A path that exists but cannot be listed or stat'ed would throw, and that is not modelled.
- Reading the configuration file, the `CYPRESS_MCP_CONFIG` path choice and YAML parsing are outside the model. The loader sees their outcome as a `ConfigSource`.
- The handlers' `options = {}` default is not modelled: arguments are always an object, absent keys reading as undefined.
- The `try` block at src/cypress-handler.js:198-207 holds an `if` whose branch is empty. Its condition calls `code.includes`, which line 186 has already called without throwing, so the block cannot throw and never changes the report. It is not modelled.
- `maxExecutionTime` and the mcp section are loaded and checked but never consulted by the handler.
- Configuration.ConfigManager.IsCommandAllowed: requires the allow-list to be present. Every loaded configuration has it (`LoadedConfigComplete`), so the TypeError on a missing list cannot arise.
- Configuration.NewConfigManager: requires the parsed document to contain no `undefined`, which a YAML parser cannot produce.
- Handler.CypressHandler.GetResults: answers `QueryResults` over the current store. It carries no contract of its own, and its properties are stated on `Handler.QueryResults`.

=== FILE: config.dfy ===
/**
 * The configuration manager: the built-in defaults, the per-section merge
 * of a configuration file over them, the schema check that turns the merged
 * object into a typed configuration (or rejects it), the fallback to the
 * defaults, and the read-only accessors including the command allow-list.
 */
module Configuration {
  import opened Js

  datatype Browser = Chrome | Firefox | Edge | Electron

  function BrowserName(b: Browser): string {
    match b
    case Chrome => "chrome"
    case Firefox => "firefox"
    case Edge => "edge"
    case Electron => "electron"
  }

  /** The browser enumeration of the schema. */
  function ParseBrowser(s: string): (r: Option<Browser>)
    ensures r.Some? ==> BrowserName(r.value) == s
    ensures r.None? ==> forall b: Browser :: BrowserName(b) != s
  {
    if s == "chrome" then Some(Chrome)
    else if s == "firefox" then Some(Firefox)
    else if s == "edge" then Some(Edge)
    else if s == "electron" then Some(Electron)
    else None
  }

  datatype CypressSection = CypressSection(
    projectPath: Option<string>,
    browser: Option<Browser>,
    headless: Option<bool>,
    baseUrl: Option<string>,
    viewportWidth: Option<int>,
    viewportHeight: Option<int>,
    defaultCommandTimeout: Option<int>,
    requestTimeout: Option<int>,
    responseTimeout: Option<int>)

  datatype McpSection = McpSection(name: Option<string>, version: Option<string>)

  datatype SecuritySection = SecuritySection(
    allowedCommands: Option<seq<string>>,
    maxExecutionTime: Option<int>)

  /** A configuration that passed the schema check; keys the schema does not
      name are stripped, so they have no place here. */
  datatype Config = Config(cypress: CypressSection, mcp: McpSection, security: SecuritySection)

  /** What a merge produces: section name to the section's own keys. */
  type Sections = map<string, map<string, Value>>

  const SectionNames: set<string> := {"cypress", "mcp", "security"}

  /** The default configuration literal of the loader. */
  function DefaultSections(): Sections {
    map["cypress" := DefaultCypress(), "mcp" := DefaultMcp(), "security" := DefaultSecurity()]
  }

  function DefaultCypress(): map<string, Value> {
    map[
      "browser" := Str("chrome"),
      "headless" := Bool(true),
      "viewportWidth" := Num(1280),
      "viewportHeight" := Num(720),
      "defaultCommandTimeout" := Num(4000),
      "requestTimeout" := Num(5000),
      "responseTimeout" := Num(30000)]
  }

  function DefaultMcp(): map<string, Value> {
    map["name" := Str("cypress-mcp-server"), "version" := Str("1.0.0")]
  }

  function DefaultSecurity(): map<string, Value> {
    map["allowedCommands" := Arr([Str("*")]), "maxExecutionTime" := Num(300000)]
  }

  /** The defaults as the schema check returns them. */
  function DefaultConfig(): Config {
    Config(
      CypressSection(None, Some(Chrome), Some(true), None, Some(1280), Some(720),
                     Some(4000), Some(5000), Some(30000)),
      McpSection(Some("cypress-mcp-server"), Some("1.0.0")),
      SecuritySection(Some(["*"]), Some(300000)))
  }

  /** `{ ...defaults[section], ...file[section] }` for the three sections;
      `None` is the TypeError of reading a section of a `null` document. */
  function MergeConfigs(defaults: Sections, file: Value): (r: Option<Sections>)
    ensures r.None? <==> Nullish(file)
    ensures r.Some? ==> r.value.Keys == SectionNames
  {
    if Nullish(file) then None
    else
      Some(map[
        "cypress" := DefaultSection(defaults, "cypress") + FileSection(file, "cypress"),
        "mcp" := DefaultSection(defaults, "mcp") + FileSection(file, "mcp"),
        "security" := DefaultSection(defaults, "security") + FileSection(file, "security")])
  }

  function DefaultSection(defaults: Sections, name: string): map<string, Value> {
    if name in defaults then defaults[name] else map[]
  }

  /** The keys that spreading `file[name]` contributes. */
  function FileSection(file: Value, name: string): map<string, Value>
    requires !Nullish(file)
  {
    Spread(Member(file, name).value)
  }

  /** In every section a key the file gives takes the file's value; any
      other key keeps the default's value, and nothing else appears. */
  lemma MergeKeys(defaults: Sections, file: Value, name: string, key: string)
    requires !Nullish(file) && name in SectionNames
    ensures var merged := MergeConfigs(defaults, file).value[name];
            var given := FileSection(file, name);
            var fallback := DefaultSection(defaults, name);
            && (key in given ==> key in merged && merged[key] == given[key])
            && (key !in given ==> (key in merged <==> key in fallback))
            && (key !in given && key in fallback ==> merged[key] == fallback[key])
  {
  }

  // The schema check. Each optional field reads as Some(None) when absent
  // or undefined, Some(Some(x)) when it has the right type, None otherwise.

  function OptionalString(m: map<string, Value>, key: string): Option<Option<string>> {
    match Get(m, key)
    case Undefined => Some(None)
    case Str(s) => Some(Some(s))
    case _ => None
  }

  function OptionalBool(m: map<string, Value>, key: string): Option<Option<bool>> {
    match Get(m, key)
    case Undefined => Some(None)
    case Bool(b) => Some(Some(b))
    case _ => None
  }

  function OptionalNumber(m: map<string, Value>, key: string): Option<Option<int>> {
    match Get(m, key)
    case Undefined => Some(None)
    case Num(n) => Some(Some(n))
    case _ => None
  }

  function OptionalBrowser(m: map<string, Value>, key: string): Option<Option<Browser>> {
    match Get(m, key)
    case Undefined => Some(None)
    case Str(s) => if ParseBrowser(s).Some? then Some(ParseBrowser(s)) else None
    case _ => None
  }

  function OptionalStrings(m: map<string, Value>, key: string): Option<Option<seq<string>>> {
    match Get(m, key)
    case Undefined => Some(None)
    case Arr(items) => if StringItems(items).Some? then Some(StringItems(items)) else None
    case _ => None
  }

  /** An array of strings, element by element. */
  function StringItems(items: seq<Value>): (r: Option<seq<string>>)
    ensures r.Some? <==> forall i :: 0 <= i < |items| ==> items[i].Str?
    ensures r.Some? ==> |r.value| == |items| && forall i :: 0 <= i < |items| ==> r.value[i] == items[i].s
  {
    if items == [] then Some([])
    else if !items[0].Str? then None
    else
      match StringItems(items[1..])
      case None => None
      case Some(rest) => Some([items[0].s] + rest)
  }

  function ParseCypress(m: map<string, Value>): Option<CypressSection> {
    var projectPath := OptionalString(m, "projectPath");
    var browser := OptionalBrowser(m, "browser");
    var headless := OptionalBool(m, "headless");
    var baseUrl := OptionalString(m, "baseUrl");
    var width := OptionalNumber(m, "viewportWidth");
    var height := OptionalNumber(m, "viewportHeight");
    var command := OptionalNumber(m, "defaultCommandTimeout");
    var request := OptionalNumber(m, "requestTimeout");
    var response := OptionalNumber(m, "responseTimeout");
    if projectPath.None? || browser.None? || headless.None? || baseUrl.None? || width.None?
       || height.None? || command.None? || request.None? || response.None?
    then None
    else Some(CypressSection(projectPath.value, browser.value, headless.value, baseUrl.value,
                             width.value, height.value, command.value, request.value, response.value))
  }

  function ParseMcp(m: map<string, Value>): Option<McpSection> {
    var name := OptionalString(m, "name");
    var version := OptionalString(m, "version");
    if name.None? || version.None? then None else Some(McpSection(name.value, version.value))
  }

  function ParseSecurity(m: map<string, Value>): Option<SecuritySection> {
    var allowed := OptionalStrings(m, "allowedCommands");
    var limit := OptionalNumber(m, "maxExecutionTime");
    if allowed.None? || limit.None? then None else Some(SecuritySection(allowed.value, limit.value))
  }

  /** The configuration schema: all three sections must be present and
      every field the schema names must be absent or of its type. */
  function ParseConfig(sections: Sections): (r: Option<Config>)
    ensures r.Some? ==> SectionNames <= sections.Keys
  {
    if "cypress" !in sections || "mcp" !in sections || "security" !in sections then None
    else
      var cypress := ParseCypress(sections["cypress"]);
      var mcp := ParseMcp(sections["mcp"]);
      var security := ParseSecurity(sections["security"]);
      if cypress.None? || mcp.None? || security.None? then None
      else Some(Config(cypress.value, mcp.value, security.value))
  }

  lemma StarList()
    ensures StringItems([Str("*")]) == Some(["*"])
  {
    var r := StringItems([Str("*")]);
    assert r.Some? && |r.value| == 1 && r.value[0] == "*";
    assert r.value == ["*"];
  }

  /** The defaults pass the schema unchanged. */
  lemma DefaultsPassSchema()
    ensures ParseConfig(DefaultSections()) == Some(DefaultConfig())
  {
    var d := DefaultSections();
    assert d["cypress"] == DefaultCypress() && d["mcp"] == DefaultMcp() && d["security"] == DefaultSecurity();
    DefaultCypressPasses();
    DefaultSecurityPasses();
    DefaultMcpPasses();
    SchemaAccepts(d, DefaultConfig());
  }

  lemma DefaultMcpPasses()
    ensures ParseMcp(DefaultMcp()) == Some(DefaultConfig().mcp)
  {
  }

  /** Three sections that each pass make a configuration that passes. */
  lemma SchemaAccepts(sections: Sections, config: Config)
    requires SectionNames <= sections.Keys
    requires ParseCypress(sections["cypress"]) == Some(config.cypress)
    requires ParseMcp(sections["mcp"]) == Some(config.mcp)
    requires ParseSecurity(sections["security"]) == Some(config.security)
    ensures ParseConfig(sections) == Some(config)
  {
  }

  lemma DefaultCypressPasses()
    ensures ParseCypress(DefaultCypress()) == Some(DefaultConfig().cypress)
  {
  }

  lemma DefaultSecurityPasses()
    ensures ParseSecurity(DefaultSecurity()) == Some(DefaultConfig().security)
  {
    StarList();
  }

  /** The default values the loader falls back to, field by field. */
  lemma DefaultFieldValues()
    ensures DefaultSection(DefaultSections(), "cypress") == DefaultCypress()
    ensures DefaultSection(DefaultSections(), "security") == DefaultSecurity()
    ensures Get(DefaultCypress(), "browser") == Str("chrome")
    ensures Get(DefaultCypress(), "headless") == Bool(true)
    ensures Get(DefaultCypress(), "projectPath") == Undefined && Get(DefaultCypress(), "baseUrl") == Undefined
    ensures Get(DefaultSecurity(), "allowedCommands") == Arr([Str("*")])
    ensures StringItems([Str("*")]) == Some(["*"])
  {
    StarList();
  }

  /** What the loader finds at the configuration path. Reading the file and
      parsing its YAML happen outside the model: a failure of either is
      `Unreadable` or `Malformed`, a successful parse is `Parsed`. */
  datatype ConfigSource = NoFile | Unreadable | Malformed | Parsed(document: Value)

  /** The loader: merge the parsed file over the defaults and check it
      against the schema; any failure, or no file, yields the defaults. */
  function LoadConfig(source: ConfigSource): (r: Config)
    ensures !source.Parsed? || Nullish(source.document) ==> r == DefaultConfig()
    ensures (source.Parsed? && !Nullish(source.document)
             && ParseConfig(MergeConfigs(DefaultSections(), source.document).value).None?)
            ==> r == DefaultConfig()
    ensures (source.Parsed? && !Nullish(source.document)
             && ParseConfig(MergeConfigs(DefaultSections(), source.document).value).Some?)
            ==> r == ParseConfig(MergeConfigs(DefaultSections(), source.document).value).value
  {
    LoadOver(DefaultSections(), DefaultConfig(), source)
  }

  /** The loader over a given defaults literal and its schema-checked form. */
  function LoadOver(defaults: Sections, fallback: Config, source: ConfigSource): Config {
    match source
    case Parsed(document) =>
      (match MergeConfigs(defaults, document)
       case None => fallback
       case Some(merged) =>
         (match ParseConfig(merged)
          case None => fallback
          case Some(config) => config))
    case _ => fallback
  }

  /** Without a usable file the configuration is the defaults: no file, a
      read or parse error, or an empty document (which parses to `null`). */
  lemma LoadConfigFallback(source: ConfigSource)
    requires source.NoFile? || source.Unreadable? || source.Malformed? || source == Parsed(Null)
    ensures LoadConfig(source) == DefaultConfig()
  {
  }

  /** A browser outside the four the schema lists rejects the whole file. */
  lemma UnknownBrowserFallsBack(document: Value, browser: string)
    requires document.Obj? && "cypress" in document.fields && document.fields["cypress"].Obj?
    requires Get(document.fields["cypress"].fields, "browser") == Str(browser)
    requires ParseBrowser(browser).None?
    ensures LoadConfig(Parsed(document)) == DefaultConfig()
  {
    var merged := MergeConfigs(DefaultSections(), document).value;
    assert Get(merged["cypress"], "browser") == Str(browser);
    assert OptionalBrowser(merged["cypress"], "browser").None?;
  }

  /** A file that passes the schema decides each field it gives; fields it
      leaves out keep their defaults. */
  lemma LoadedFieldsFollowFile(document: Value)
    requires !Nullish(document)
    requires ParseConfig(MergeConfigs(DefaultSections(), document).value).Some?
    ensures var c := LoadConfig(Parsed(document));
            var cy := FileSection(document, "cypress");
            var sec := FileSection(document, "security");
            && (Get(cy, "browser").Str? ==> c.cypress.browser == ParseBrowser(Get(cy, "browser").s))
            && ("browser" !in cy ==> c.cypress.browser == Some(Chrome))
            && (Get(cy, "headless").Bool? ==> c.cypress.headless == Some(Get(cy, "headless").b))
            && ("headless" !in cy ==> c.cypress.headless == Some(true))
            && (Get(sec, "allowedCommands").Arr? ==>
                  c.security.allowedCommands == StringItems(Get(sec, "allowedCommands").items))
            && ("allowedCommands" !in sec ==> c.security.allowedCommands == Some(["*"]))
            && (Get(cy, "projectPath").Str? ==> c.cypress.projectPath == Some(Get(cy, "projectPath").s))
            && ("projectPath" !in cy ==> c.cypress.projectPath == None)
            && (Get(cy, "baseUrl").Str? ==> c.cypress.baseUrl == Some(Get(cy, "baseUrl").s))
            && ("baseUrl" !in cy ==> c.cypress.baseUrl == None)
  {
    DefaultFieldValues();
    FieldsFollowFile(DefaultSections(), DefaultConfig(), document);
  }

  /** The same for the numeric cypress fields: a number the file gives is
      the one loaded, and a field it leaves out keeps the default. */
  lemma LoadedNumbersFollowFile(document: Value)
    requires !Nullish(document)
    requires ParseConfig(MergeConfigs(DefaultSections(), document).value).Some?
    ensures var c := LoadConfig(Parsed(document));
            var cy := FileSection(document, "cypress");
            && (Get(cy, "viewportWidth").Num? ==> c.cypress.viewportWidth == Some(Get(cy, "viewportWidth").n))
            && ("viewportWidth" !in cy ==> c.cypress.viewportWidth == Some(1280))
            && (Get(cy, "viewportHeight").Num? ==> c.cypress.viewportHeight == Some(Get(cy, "viewportHeight").n))
            && ("viewportHeight" !in cy ==> c.cypress.viewportHeight == Some(720))
            && (Get(cy, "defaultCommandTimeout").Num? ==>
                  c.cypress.defaultCommandTimeout == Some(Get(cy, "defaultCommandTimeout").n))
            && ("defaultCommandTimeout" !in cy ==> c.cypress.defaultCommandTimeout == Some(4000))
            && (Get(cy, "requestTimeout").Num? ==> c.cypress.requestTimeout == Some(Get(cy, "requestTimeout").n))
            && ("requestTimeout" !in cy ==> c.cypress.requestTimeout == Some(5000))
            && (Get(cy, "responseTimeout").Num? ==> c.cypress.responseTimeout == Some(Get(cy, "responseTimeout").n))
            && ("responseTimeout" !in cy ==> c.cypress.responseTimeout == Some(30000))
  {
    var d := DefaultSections();
    var merged := MergeConfigs(d, document).value;
    var c := ParseConfig(merged).value;
    assert LoadConfig(Parsed(document)) == c;
    DefaultNumbers();
    MergeKeys(d, document, "cypress", "viewportWidth");
    MergeKeys(d, document, "cypress", "viewportHeight");
    MergeKeys(d, document, "cypress", "defaultCommandTimeout");
    MergeKeys(d, document, "cypress", "requestTimeout");
    MergeKeys(d, document, "cypress", "responseTimeout");
    CypressFields(merged["cypress"]);
  }

  /** The same for the server's name and version and the time limit. */
  lemma LoadedServerFieldsFollowFile(document: Value)
    requires !Nullish(document)
    requires ParseConfig(MergeConfigs(DefaultSections(), document).value).Some?
    ensures var c := LoadConfig(Parsed(document));
            var mcp := FileSection(document, "mcp");
            var sec := FileSection(document, "security");
            && (Get(mcp, "name").Str? ==> c.mcp.name == Some(Get(mcp, "name").s))
            && ("name" !in mcp ==> c.mcp.name == Some("cypress-mcp-server"))
            && (Get(mcp, "version").Str? ==> c.mcp.version == Some(Get(mcp, "version").s))
            && ("version" !in mcp ==> c.mcp.version == Some("1.0.0"))
            && (Get(sec, "maxExecutionTime").Num? ==>
                  c.security.maxExecutionTime == Some(Get(sec, "maxExecutionTime").n))
            && ("maxExecutionTime" !in sec ==> c.security.maxExecutionTime == Some(300000))
  {
    var d := DefaultSections();
    var merged := MergeConfigs(d, document).value;
    var c := ParseConfig(merged).value;
    assert LoadConfig(Parsed(document)) == c;
    DefaultNumbers();
    MergeKeys(d, document, "mcp", "name");
    MergeKeys(d, document, "mcp", "version");
    MergeKeys(d, document, "security", "maxExecutionTime");
    McpFields(merged["mcp"]);
    SecurityFields(merged["security"]);
  }

  /** The default values of the numeric and server fields. */
  lemma DefaultNumbers()
    ensures var cy := DefaultSection(DefaultSections(), "cypress");
            && Get(cy, "viewportWidth") == Num(1280) && Get(cy, "viewportHeight") == Num(720)
            && Get(cy, "defaultCommandTimeout") == Num(4000) && Get(cy, "requestTimeout") == Num(5000)
            && Get(cy, "responseTimeout") == Num(30000)
    ensures var mcp := DefaultSection(DefaultSections(), "mcp");
            Get(mcp, "name") == Str("cypress-mcp-server") && Get(mcp, "version") == Str("1.0.0")
    ensures Get(DefaultSection(DefaultSections(), "security"), "maxExecutionTime") == Num(300000)
  {
    assert DefaultSection(DefaultSections(), "cypress") == DefaultCypress();
    assert DefaultSection(DefaultSections(), "mcp") == DefaultMcp();
    assert DefaultSection(DefaultSections(), "security") == DefaultSecurity();
  }

  lemma FieldsFollowFile(defaults: Sections, fallback: Config, document: Value)
    requires !Nullish(document)
    requires ParseConfig(MergeConfigs(defaults, document).value).Some?
    ensures var c := LoadOver(defaults, fallback, Parsed(document));
            var cy := FileSection(document, "cypress");
            var sec := FileSection(document, "security");
            var dcy := DefaultSection(defaults, "cypress");
            var dsec := DefaultSection(defaults, "security");
            && (Get(cy, "browser").Str? ==> c.cypress.browser == ParseBrowser(Get(cy, "browser").s))
            && ("browser" !in cy && Get(dcy, "browser").Str? ==> c.cypress.browser == ParseBrowser(dcy["browser"].s))
            && (Get(cy, "headless").Bool? ==> c.cypress.headless == Some(Get(cy, "headless").b))
            && ("headless" !in cy && Get(dcy, "headless").Bool? ==> c.cypress.headless == Some(dcy["headless"].b))
            && (Get(sec, "allowedCommands").Arr? ==>
                  c.security.allowedCommands == StringItems(Get(sec, "allowedCommands").items))
            && ("allowedCommands" !in sec && Get(dsec, "allowedCommands").Arr? ==>
                  c.security.allowedCommands == StringItems(dsec["allowedCommands"].items))
            && (Get(cy, "projectPath").Str? ==> c.cypress.projectPath == Some(Get(cy, "projectPath").s))
            && ("projectPath" !in cy && Get(dcy, "projectPath") == Undefined ==> c.cypress.projectPath == None)
            && (Get(cy, "baseUrl").Str? ==> c.cypress.baseUrl == Some(Get(cy, "baseUrl").s))
            && ("baseUrl" !in cy && Get(dcy, "baseUrl") == Undefined ==> c.cypress.baseUrl == None)
  {
    var merged := MergeConfigs(defaults, document).value;
    MergeKeys(defaults, document, "cypress", "browser");
    MergeKeys(defaults, document, "cypress", "headless");
    MergeKeys(defaults, document, "security", "allowedCommands");
    MergeKeys(defaults, document, "cypress", "projectPath");
    MergeKeys(defaults, document, "cypress", "baseUrl");
    CypressFields(merged["cypress"]);
    SecurityFields(merged["security"]);
  }

  /** What the schema check keeps of the cypress fields. */
  lemma CypressFields(m: map<string, Value>)
    requires ParseCypress(m).Some?
    ensures var c := ParseCypress(m).value;
            && (Get(m, "browser").Str? ==> c.browser == ParseBrowser(Get(m, "browser").s))
            && (Get(m, "browser") == Undefined ==> c.browser == None)
            && (Get(m, "headless").Bool? ==> c.headless == Some(Get(m, "headless").b))
            && (Get(m, "headless") == Undefined ==> c.headless == None)
            && (Get(m, "projectPath").Str? ==> c.projectPath == Some(Get(m, "projectPath").s))
            && (Get(m, "projectPath") == Undefined ==> c.projectPath == None)
            && (Get(m, "baseUrl").Str? ==> c.baseUrl == Some(Get(m, "baseUrl").s))
            && (Get(m, "baseUrl") == Undefined ==> c.baseUrl == None)
            && (Get(m, "viewportWidth").Num? ==> c.viewportWidth == Some(Get(m, "viewportWidth").n))
            && (Get(m, "viewportHeight").Num? ==> c.viewportHeight == Some(Get(m, "viewportHeight").n))
            && (Get(m, "defaultCommandTimeout").Num? ==> c.defaultCommandTimeout == Some(Get(m, "defaultCommandTimeout").n))
            && (Get(m, "requestTimeout").Num? ==> c.requestTimeout == Some(Get(m, "requestTimeout").n))
            && (Get(m, "responseTimeout").Num? ==> c.responseTimeout == Some(Get(m, "responseTimeout").n))
            && (Get(m, "viewportWidth") == Undefined ==> c.viewportWidth == None)
            && (Get(m, "viewportHeight") == Undefined ==> c.viewportHeight == None)
            && (Get(m, "defaultCommandTimeout") == Undefined ==> c.defaultCommandTimeout == None)
            && (Get(m, "requestTimeout") == Undefined ==> c.requestTimeout == None)
            && (Get(m, "responseTimeout") == Undefined ==> c.responseTimeout == None)
            && (Get(m, "browser") != Undefined ==> c.browser.Some?)
            && (Get(m, "headless") != Undefined ==> c.headless.Some?)
            && (Get(m, "viewportWidth") != Undefined ==> c.viewportWidth.Some?)
            && (Get(m, "viewportHeight") != Undefined ==> c.viewportHeight.Some?)
            && (Get(m, "defaultCommandTimeout") != Undefined ==> c.defaultCommandTimeout.Some?)
            && (Get(m, "requestTimeout") != Undefined ==> c.requestTimeout.Some?)
            && (Get(m, "responseTimeout") != Undefined ==> c.responseTimeout.Some?)
  {
  }

  /** What the schema check keeps of the mcp fields. */
  lemma McpFields(m: map<string, Value>)
    requires ParseMcp(m).Some?
    ensures Get(m, "name").Str? ==> ParseMcp(m).value.name == Some(Get(m, "name").s)
    ensures Get(m, "version").Str? ==> ParseMcp(m).value.version == Some(Get(m, "version").s)
    ensures Get(m, "name") == Undefined ==> ParseMcp(m).value.name == None
    ensures Get(m, "version") == Undefined ==> ParseMcp(m).value.version == None
    ensures Get(m, "name") != Undefined ==> ParseMcp(m).value.name.Some?
    ensures Get(m, "version") != Undefined ==> ParseMcp(m).value.version.Some?
  {
  }

  /** What the schema check keeps of the security fields. */
  lemma SecurityFields(m: map<string, Value>)
    requires ParseSecurity(m).Some?
    ensures Get(m, "maxExecutionTime").Num? ==>
              ParseSecurity(m).value.maxExecutionTime == Some(Get(m, "maxExecutionTime").n)
    ensures Get(m, "maxExecutionTime") == Undefined ==> ParseSecurity(m).value.maxExecutionTime == None
    ensures Get(m, "allowedCommands") == Undefined ==> ParseSecurity(m).value.allowedCommands == None
    ensures Get(m, "allowedCommands").Arr? ==>
              ParseSecurity(m).value.allowedCommands == StringItems(Get(m, "allowedCommands").items)
    ensures Get(m, "allowedCommands") != Undefined ==> ParseSecurity(m).value.allowedCommands.Some?
    ensures Get(m, "maxExecutionTime") != Undefined ==> ParseSecurity(m).value.maxExecutionTime.Some?
  {
  }

  /** No `undefined` anywhere: what a YAML parser can produce. */
  predicate Defined(v: Value)
    decreases v
  {
    match v
    case Undefined => false
    case Arr(items) => forall i | 0 <= i < |items| :: Defined(items[i])
    case Obj(fields) => forall k | k in fields :: Defined(fields[k])
    case _ => true
  }

  /** The fields that the defaults fill in are always present. */
  predicate Complete(c: Config) {
    && c.cypress.browser.Some?
    && c.cypress.headless.Some?
    && c.cypress.viewportWidth.Some?
    && c.cypress.viewportHeight.Some?
    && c.cypress.defaultCommandTimeout.Some?
    && c.cypress.requestTimeout.Some?
    && c.cypress.responseTimeout.Some?
    && c.mcp.name.Some?
    && c.mcp.version.Some?
    && c.security.allowedCommands.Some?
    && c.security.maxExecutionTime.Some?
  }

  /** A key the defaults define stays defined after merging a YAML document
      over them. */
  lemma MergedKeyDefined(defaults: Sections, document: Value, name: string, key: string)
    requires Defined(document) && !Nullish(document) && name in SectionNames
    requires Get(DefaultSection(defaults, name), key) != Undefined
    requires key != [] && !('0' <= key[0] <= '9')
    ensures Get(MergeConfigs(defaults, document).value[name], key) != Undefined
  {
    MergeKeys(defaults, document, name, key);
    var section := Member(document, name).value;
    if !section.Obj? {
      SpreadNamedKey(section, key);
    } else if key in section.fields {
      assert name in document.fields && document.fields[name] == section;
      assert Defined(section);
    }
  }

  /** Every configuration loaded from a YAML document (or from nothing)
      has the defaulted fields. */
  lemma LoadedConfigComplete(source: ConfigSource)
    requires source.Parsed? ==> Defined(source.document)
    ensures Complete(LoadConfig(source))
  {
    DefaultsDefined();
    CompleteOver(DefaultSections(), DefaultConfig(), source);
  }

  /** The defaults literal defines every field it names. */
  lemma DefaultsDefined()
    ensures var d := DefaultSections();
            && SectionNames <= d.Keys
            && "browser" in d["cypress"] && "headless" in d["cypress"]
            && "viewportWidth" in d["cypress"] && "viewportHeight" in d["cypress"]
            && "defaultCommandTimeout" in d["cypress"] && "requestTimeout" in d["cypress"]
            && "responseTimeout" in d["cypress"]
            && "name" in d["mcp"] && "version" in d["mcp"]
            && "allowedCommands" in d["security"] && "maxExecutionTime" in d["security"]
            && forall name, key | name in SectionNames && key in d[name] :: d[name][key] != Undefined
  {
    var d := DefaultSections();
    assert d["cypress"] == DefaultCypress() && d["mcp"] == DefaultMcp() && d["security"] == DefaultSecurity();
    DefaultSectionDefined(DefaultCypress());
    DefaultSectionDefined(DefaultMcp());
    DefaultSectionDefined(DefaultSecurity());
  }

  lemma DefaultSectionDefined(section: map<string, Value>)
    requires section in {DefaultCypress(), DefaultMcp(), DefaultSecurity()}
    ensures forall key | key in section :: section[key] != Undefined
  {
  }

  lemma CompleteOver(defaults: Sections, fallback: Config, source: ConfigSource)
    requires source.Parsed? ==> Defined(source.document)
    requires Complete(fallback) && SectionNames <= defaults.Keys
    requires "browser" in defaults["cypress"] && "headless" in defaults["cypress"]
    requires "viewportWidth" in defaults["cypress"] && "viewportHeight" in defaults["cypress"]
    requires "defaultCommandTimeout" in defaults["cypress"] && "requestTimeout" in defaults["cypress"]
    requires "responseTimeout" in defaults["cypress"]
    requires "name" in defaults["mcp"] && "version" in defaults["mcp"]
    requires "allowedCommands" in defaults["security"] && "maxExecutionTime" in defaults["security"]
    requires forall name, key | name in SectionNames && key in defaults[name] :: defaults[name][key] != Undefined
    ensures Complete(LoadOver(defaults, fallback, source))
  {
    if source.Parsed? && !Nullish(source.document) {
      var document := source.document;
      var merged := MergeConfigs(defaults, document).value;
      if ParseConfig(merged).Some? {
        MergedKeyDefined(defaults, document, "cypress", "browser");
        MergedKeyDefined(defaults, document, "cypress", "headless");
        MergedKeyDefined(defaults, document, "cypress", "viewportWidth");
        MergedKeyDefined(defaults, document, "cypress", "viewportHeight");
        MergedKeyDefined(defaults, document, "cypress", "defaultCommandTimeout");
        MergedKeyDefined(defaults, document, "cypress", "requestTimeout");
        MergedKeyDefined(defaults, document, "cypress", "responseTimeout");
        MergedKeyDefined(defaults, document, "mcp", "name");
        MergedKeyDefined(defaults, document, "mcp", "version");
        MergedKeyDefined(defaults, document, "security", "allowedCommands");
        MergedKeyDefined(defaults, document, "security", "maxExecutionTime");
        CypressFields(merged["cypress"]);
        McpFields(merged["mcp"]);
        SecurityFields(merged["security"]);
      }
    }
  }

  datatype Section = CypressPart(cypress: CypressSection) | McpPart(mcp: McpSection) | SecurityPart(security: SecuritySection)

  /** The manager holds the configuration loaded at construction and never
      changes it. */
  datatype ConfigManager = ConfigManager(config: Config) {

    predicate Valid() {
      Complete(config)
    }

    /** `config[key]`: one of the three sections, undefined otherwise. */
    function Get(key: string): (r: Option<Section>)
      ensures r.Some? <==> key in SectionNames
    {
      if key == "cypress" then Some(CypressPart(config.cypress))
      else if key == "mcp" then Some(McpPart(config.mcp))
      else if key == "security" then Some(SecurityPart(config.security))
      else None
    }

    function GetCypressConfig(): (r: CypressSection)
      ensures Get("cypress") == Some(CypressPart(r))
    {
      config.cypress
    }

    function GetSecurityConfig(): (r: SecuritySection)
      ensures Get("security") == Some(SecurityPart(r))
    {
      config.security
    }

    /** Allowed iff the list holds the wildcard or the name itself. */
    function IsCommandAllowed(command: string): (r: bool)
      requires Valid()
      ensures r <==> exists i :: 0 <= i < |config.security.allowedCommands.value|
                        && config.security.allowedCommands.value[i] in {"*", command}
    {
      var allowed := config.security.allowedCommands.value;
      "*" in allowed || command in allowed
    }
  }

  /** The manager's constructor: load once. */
  function NewConfigManager(source: ConfigSource): (m: ConfigManager)
    requires source.Parsed? ==> Defined(source.document)
    ensures m.Valid()
    ensures m.config == LoadConfig(source)
  {
    LoadedConfigComplete(source);
    ConfigManager(LoadConfig(source))
  }

  /** With the built-in defaults every command is allowed. */
  lemma DefaultsAllowEverything(command: string)
    ensures NewConfigManager(NoFile).IsCommandAllowed(command)
  {
    assert NewConfigManager(NoFile).config.security.allowedCommands.value[0] == "*";
  }
}

=== FILE: cypress_handler.dfy ===
/**
 * The command handler: the allow-list gate and dispatcher over seven
 * commands, the run-option merge and the record of each run in an
 * insertion-ordered result store, the interactive-runner option build, the
 * heuristic test-code validator, the test template generator and the
 * screenshot and video scans.
 */
module Handler {
  import opened Js
  import opened Configuration

  /** The errors a command can end in. `Thrown` carries the message of an
      error raised by the test runner library or the file system, which the
      handler passes on unchanged. */
  datatype Error =
    | NotAllowed(command: string)
    | UnknownCommand(command: string)
    | MissingTestInput
    | MissingDescription
    | NoResults(runId: Value)
    | NotAFunction(expression: string)
    | Thrown(message: string)

  /** The message each error carries. */
  function Message(e: Error): string {
    match e
    case NotAllowed(command) => "Command " + command + " is not allowed by security configuration"
    case UnknownCommand(command) => "Unknown command: " + command
    case MissingTestInput => "Either testFile or testCode must be provided"
    case MissingDescription => "Description is required to generate a test"
    case NoResults(runId) => "No results found for runId: " + ToJsString(runId)
    case NotAFunction(expression) => expression + " is not a function"
    case Thrown(message) => message
  }

  /** The messages of the gate, the dispatcher and the result lookup name
      the command or run id they refuse. */
  lemma MessagesNameTheirSubject(command: string, runId: string)
    ensures Contains(Message(NotAllowed(command)), command)
    ensures Contains(Message(UnknownCommand(command)), command)
    ensures Contains(Message(NoResults(Str(runId))), runId)
  {
    ContainsSelf(command);
    ContainsRight("Command ", command, command);
    ContainsLeft("Command " + command, " is not allowed by security configuration", command);
    ContainsRight("Unknown command: ", command, command);
    ContainsSelf(runId);
    ContainsRight("No results found for runId: ", runId, runId);
  }

  datatype Result<T> = Ok(value: T) | Err(error: Error)

  /** The answer of an outside call: its value, or the message of what it threw. */
  datatype Io<T> = Done(value: T) | Failed(message: string)

  /** One entry of a recursive directory listing, already stat'ed: its path
      relative to the listed directory, whether it is a regular file, its size. */
  datatype Entry = Entry(name: string, isFile: bool, size: nat)

  datatype Artifact = Artifact(path: string, relativePath: string, size: nat)

  /** Everything outside the handler that its commands consult: the clock,
      the working directory, the test runner library, the file system and
      the path module. */
  datatype Host = Host(
    now: nat,
    cwd: string,
    cypressRun: map<string, Value> -> Io<map<string, Value>>,
    cypressOpen: map<string, Value> -> Io<()>,
    readFile: Value -> Io<string>,
    writeFile: (Value, string) -> Io<()>,
    join: seq<string> -> string,
    relative: (string, string) -> string,
    listDir: string -> Option<seq<Entry>>)

  const Commands: seq<string> :=
    ["run", "open", "validate", "generate", "getResults", "getScreenshots", "getVideos"]

  // ---------------------------------------------------------------------
  // Option objects handed to the test runner library

  function BoolValue(o: Option<bool>): Value {
    if o.Some? then Bool(o.value) else Undefined
  }

  function NumValue(o: Option<int>): Value {
    if o.Some? then Num(o.value) else Undefined
  }

  function StrValue(o: Option<string>): Value {
    if o.Some? then Str(o.value) else Undefined
  }

  function BrowserValue(o: Option<Browser>): Value {
    if o.Some? then Str(BrowserName(o.value)) else Undefined
  }

  /** An object with its `undefined`-valued keys deleted. */
  function WithoutUndefined(obj: map<string, Value>): map<string, Value> {
    map k | k in obj && obj[k] != Undefined :: obj[k]
  }

  /** Deleting `undefined`-valued keys changes no property read. */
  lemma GetWithoutUndefined(obj: map<string, Value>, key: string)
    ensures Get(WithoutUndefined(obj), key) == Get(obj, key)
    ensures key in WithoutUndefined(obj) <==> Get(obj, key) != Undefined
  {
  }

  /** The `forEach` over `Object.keys(obj)` that deletes every key whose
      value is `undefined`. */
  method DropUndefined(obj: map<string, Value>, keys: seq<string>) returns (r: map<string, Value>)
    requires forall k :: k in obj ==> k in keys
    ensures r == WithoutUndefined(obj)
  {
    r := obj;
    var i := 0;
    while i < |keys|
      invariant 0 <= i <= |keys|
      invariant forall k :: k in r <==> k in obj && (obj[k] == Undefined ==> k !in keys[..i])
      invariant forall k :: k in r ==> r[k] == obj[k]
    {
      var key := keys[i];
      if Get(r, key) == Undefined {
        r := r - {key};
      }
      i := i + 1;
    }
    assert keys[..i] == keys;
  }

  /** The `config` object of a run: each field is the caller's value unless
      that is null or undefined, then the configured default; the caller's
      `config` object is spread over the lot. */
  function RunConfig(options: map<string, Value>, c: CypressSection): map<string, Value> {
    map[
      "baseUrl" := Coalesce(Get(options, "baseUrl"), StrValue(c.baseUrl)),
      "viewportWidth" := Coalesce(Get(options, "viewportWidth"), NumValue(c.viewportWidth)),
      "viewportHeight" := Coalesce(Get(options, "viewportHeight"), NumValue(c.viewportHeight)),
      "defaultCommandTimeout" := Coalesce(Get(options, "defaultCommandTimeout"), NumValue(c.defaultCommandTimeout)),
      "requestTimeout" := Coalesce(Get(options, "requestTimeout"), NumValue(c.requestTimeout)),
      "responseTimeout" := Coalesce(Get(options, "responseTimeout"), NumValue(c.responseTimeout))]
    + Spread(Get(options, "config"))
  }

  const RunOptionKeys: seq<string> := ["headless", "browser", "spec", "config", "env", "project"]

  /** The run options object as written, before undefined keys are deleted. */
  function RunOptionsLiteral(options: map<string, Value>, c: CypressSection): map<string, Value> {
    map[
      "headless" := Coalesce(Get(options, "headless"), BoolValue(c.headless)),
      "browser" := Coalesce(Get(options, "browser"), BrowserValue(c.browser)),
      "spec" := Get(options, "spec"),
      "config" := Obj(RunConfig(options, c)),
      "env" := Or(Get(options, "env"), Obj(map[])),
      "project" := Or(Get(options, "project"), StrValue(c.projectPath))]
  }

  /** The options a run hands to the test runner library. */
  function RunOptionsFor(options: map<string, Value>, c: CypressSection): map<string, Value> {
    WithoutUndefined(RunOptionsLiteral(options, c))
  }

  /** Each top-level run option follows its rule, an absent key reading as
      `undefined`. */
  lemma RunOptionsMerge(options: map<string, Value>, c: CypressSection)
    ensures var run := RunOptionsFor(options, c);
            && Get(run, "headless") == Coalesce(Get(options, "headless"), BoolValue(c.headless))
            && Get(run, "browser") == Coalesce(Get(options, "browser"), BrowserValue(c.browser))
            && Get(run, "spec") == Get(options, "spec")
            && Get(run, "config") == Obj(RunConfig(options, c))
            && Get(run, "env") == (if Truthy(Get(options, "env")) then Get(options, "env") else Obj(map[]))
            && Get(run, "project") == Or(Get(options, "project"), StrValue(c.projectPath))
  {
    var literal := RunOptionsLiteral(options, c);
    GetWithoutUndefined(literal, "headless");
    GetWithoutUndefined(literal, "browser");
    GetWithoutUndefined(literal, "spec");
    GetWithoutUndefined(literal, "config");
    GetWithoutUndefined(literal, "env");
    GetWithoutUndefined(literal, "project");
  }

  /** The caller's `headless: false` beats a configured `true`, and a
      configured default fills in only for a null or absent caller value. */
  lemma HeadlessPrecedence(options: map<string, Value>, c: CypressSection)
    ensures Get(options, "headless") == Bool(false) ==> Get(RunOptionsFor(options, c), "headless") == Bool(false)
    ensures Nullish(Get(options, "headless")) && c.headless.Some? ==>
              Get(RunOptionsFor(options, c), "headless") == Bool(c.headless.value)
  {
    RunOptionsMerge(options, c);
  }

  /** Inside `config`, a key of the caller's `config` object wins over the
      computed field of the same name, `baseUrl` included. */
  lemma RunConfigOverride(options: map<string, Value>, c: CypressSection, key: string)
    ensures var given := Spread(Get(options, "config"));
            var merged := RunConfig(options, c);
            && (key in given ==> key in merged && merged[key] == given[key])
            && (key !in given && key == "baseUrl" ==> merged[key] == Coalesce(Get(options, key), StrValue(c.baseUrl)))
            && (key !in given && key == "viewportWidth" ==> merged[key] == Coalesce(Get(options, key), NumValue(c.viewportWidth)))
            && (key !in given && key == "viewportHeight" ==> merged[key] == Coalesce(Get(options, key), NumValue(c.viewportHeight)))
            && (key !in given && key == "defaultCommandTimeout" ==>
                  merged[key] == Coalesce(Get(options, key), NumValue(c.defaultCommandTimeout)))
            && (key !in given && key == "requestTimeout" ==> merged[key] == Coalesce(Get(options, key), NumValue(c.requestTimeout)))
            && (key !in given && key == "responseTimeout" ==> merged[key] == Coalesce(Get(options, key), NumValue(c.responseTimeout)))
            && (key in merged <==> key in given || key in RunConfigKeys)
  {
  }

  const RunConfigKeys: set<string> :=
    {"baseUrl", "viewportWidth", "viewportHeight", "defaultCommandTimeout", "requestTimeout", "responseTimeout"}

  /** With a configuration as loaded (its defaulted fields present) the
      run options always carry headless, browser, config and env; only an
      absent spec or an absent project can be missing. */
  lemma RunOptionsKeys(options: map<string, Value>, c: CypressSection)
    requires c.headless.Some? && c.browser.Some?
    ensures var run := RunOptionsFor(options, c);
            && {"headless", "browser", "config", "env"} <= run.Keys
            && ("spec" in run <==> Get(options, "spec") != Undefined)
            && ("project" in run <==> Or(Get(options, "project"), StrValue(c.projectPath)) != Undefined)
            && run.Keys <= {"headless", "browser", "spec", "config", "env", "project"}
  {
    var literal := RunOptionsLiteral(options, c);
    GetWithoutUndefined(literal, "headless");
    GetWithoutUndefined(literal, "browser");
    GetWithoutUndefined(literal, "spec");
    GetWithoutUndefined(literal, "config");
    GetWithoutUndefined(literal, "env");
    GetWithoutUndefined(literal, "project");
  }

  const OpenOptionKeys: seq<string> := ["browser", "config", "env", "project"]

  /** The options object built for the interactive runner, as written. */
  function OpenOptionsLiteral(options: map<string, Value>, c: CypressSection): map<string, Value> {
    map[
      "browser" := Coalesce(Get(options, "browser"), BrowserValue(c.browser)),
      "config" := Obj(map["baseUrl" := Coalesce(Get(options, "baseUrl"), StrValue(c.baseUrl))]
                      + Spread(Get(options, "config"))),
      "env" := Or(Get(options, "env"), Obj(map[])),
      "project" := Or(Get(options, "project"), StrValue(c.projectPath))]
  }

  function OpenOptionsFor(options: map<string, Value>, c: CypressSection): map<string, Value> {
    WithoutUndefined(OpenOptionsLiteral(options, c))
  }

  /** Each interactive-runner option follows its rule, an absent key
      reading as `undefined`; `spec` and `headless` are never passed. */
  lemma OpenOptionsMerge(options: map<string, Value>, c: CypressSection)
    ensures var open := OpenOptionsFor(options, c);
            && Get(open, "browser") == Coalesce(Get(options, "browser"), BrowserValue(c.browser))
            && Get(open, "config") == Obj(map["baseUrl" := Coalesce(Get(options, "baseUrl"), StrValue(c.baseUrl))]
                                          + Spread(Get(options, "config")))
            && Get(open, "env") == (if Truthy(Get(options, "env")) then Get(options, "env") else Obj(map[]))
            && Get(open, "project") == Or(Get(options, "project"), StrValue(c.projectPath))
            && "spec" !in open && "headless" !in open
  {
    var literal := OpenOptionsLiteral(options, c);
    GetWithoutUndefined(literal, "browser");
    GetWithoutUndefined(literal, "config");
    GetWithoutUndefined(literal, "env");
    GetWithoutUndefined(literal, "project");
    GetWithoutUndefined(literal, "spec");
    GetWithoutUndefined(literal, "headless");
  }

  /** The interactive runner gets the same browser, env and project as a
      run, and its `config` the same `baseUrl`. */
  lemma OpenOptionsMatchRun(options: map<string, Value>, c: CypressSection)
    ensures var open := OpenOptionsFor(options, c);
            var run := RunOptionsFor(options, c);
            && Get(open, "browser") == Get(run, "browser")
            && Get(open, "env") == Get(run, "env")
            && Get(open, "project") == Get(run, "project")
            && Get(open, "config").Obj?
            && Get(Get(open, "config").fields, "baseUrl") == Get(RunConfig(options, c), "baseUrl")
  {
    OpenOptionsMerge(options, c);
    RunOptionsMerge(options, c);
    RunConfigOverride(options, c, "baseUrl");
  }

  /** What opening the interactive runner answers. */
  function OpenOutcome(options: map<string, Value>, c: CypressSection, host: Host): (r: Result<OpenReport>)
    ensures r.Ok? <==> host.cypressOpen(OpenOptionsFor(options, c)).Done?
    ensures r.Ok? ==> r.value == OpenReport(true, "Cypress Test Runner opened")
    ensures r.Err? ==> r.error == Thrown(host.cypressOpen(OpenOptionsFor(options, c)).message)
  {
    match host.cypressOpen(OpenOptionsFor(options, c))
    case Failed(message) => Err(Thrown(message))
    case Done(_) => Ok(OpenReport(true, "Cypress Test Runner opened"))
  }

  datatype OpenReport = OpenReport(success: bool, message: string)

  // ---------------------------------------------------------------------
  // Runs and the result store

  /** What the handler keeps of one run: the run id and the summary fields
      of the library's result, whatever their values. */
  datatype RunRecord = RunRecord(
    runId: string,
    status: Value,
    startedTestsAt: Value,
    endedTestsAt: Value,
    totalDuration: Value,
    totalSuites: Value,
    totalTests: Value,
    totalPassed: Value,
    totalFailed: Value,
    totalPending: Value,
    totalSkipped: Value,
    runs: Value)

  /** The record plus its derived success flag, as a run answers. */
  datatype RunReport = RunReport(record: RunRecord, success: bool)

  function RunIdOf(now: nat): string {
    "run_" + NatToString(now)
  }

  /** Run ids taken at different milliseconds differ, so only two runs
      started in the same millisecond share an entry of the store. */
  lemma RunIdsDiffer(a: nat, b: nat)
    ensures RunIdOf(a) == RunIdOf(b) ==> a == b
  {
    NatToStringInjective(a, b);
    if RunIdOf(a) == RunIdOf(b) {
      assert RunIdOf(a)[4..] == NatToString(a);
      assert RunIdOf(b)[4..] == NatToString(b);
    }
  }

  function RecordOf(runId: string, result: map<string, Value>): RunRecord {
    RunRecord(runId, Get(result, "status"), Get(result, "startedTestsAt"), Get(result, "endedTestsAt"),
              Get(result, "totalDuration"), Get(result, "totalSuites"), Get(result, "totalTests"),
              Get(result, "totalPassed"), Get(result, "totalFailed"), Get(result, "totalPending"),
              Get(result, "totalSkipped"), Get(result, "runs"))
  }

  /** A run succeeded iff it finished and no test failed. */
  predicate Succeeded(rec: RunRecord) {
    rec.status == Str("finished") && rec.totalFailed == Num(0)
  }

  /** What a run answers: the library's error unchanged, or the recorded run. */
  function RunOutcome(options: map<string, Value>, c: CypressSection, host: Host): (r: Result<RunReport>)
    ensures r.Ok? <==> host.cypressRun(RunOptionsFor(options, c)).Done?
    ensures r.Ok? ==> r.value.record.runId == RunIdOf(host.now)
    ensures r.Ok? ==> r.value.record == RecordOf(RunIdOf(host.now), host.cypressRun(RunOptionsFor(options, c)).value)
    ensures r.Ok? ==> var result := host.cypressRun(RunOptionsFor(options, c)).value;
                      r.value.success <==> Get(result, "status") == Str("finished") && Get(result, "totalFailed") == Num(0)
    ensures r.Err? ==> r.error == Thrown(host.cypressRun(RunOptionsFor(options, c)).message)
  {
    match host.cypressRun(RunOptionsFor(options, c))
    case Failed(message) => Err(Thrown(message))
    case Done(result) =>
      var rec := RecordOf(RunIdOf(host.now), result);
      Ok(RunReport(rec, Succeeded(rec)))
  }

  /** The run-id to record map, with its keys in insertion order as a
      JavaScript `Map` keeps them. */
  datatype Store = Store(order: seq<string>, records: map<string, RunRecord>) {

    /** Keys listed once each, exactly the map's keys, each record filed
        under its own run id. */
    ghost predicate Valid() {
      && (forall i, j :: 0 <= i < j < |order| ==> order[i] != order[j])
      && (forall id :: id in records <==> id in order)
      && (forall id :: id in records ==> records[id].runId == id)
    }

    /** `map.set(id, rec)`: a new key goes last; an existing key keeps its place. */
    function Set(id: string, rec: RunRecord): Store {
      Store(if id in records then order else order + [id], records[id := rec])
    }

    /** `map.get(id)` */
    function Lookup(id: string): Option<RunRecord> {
      if id in records then Some(records[id]) else None
    }

    /** `Array.from(map.values())` */
    function Values(): (vs: seq<RunRecord>)
      requires Valid()
      ensures |vs| == |order|
      ensures forall i :: 0 <= i < |order| ==> vs[i] == records[order[i]]
    {
      seq(|order|, i requires 0 <= i < |order| => records[order[i]])
    }
  }

  function EmptyStore(): (s: Store)
    ensures s.Valid() && s.Values() == []
  {
    Store([], map[])
  }

  /** Storing a record under its own id keeps the store well formed; the id
      now finds that record and every other id finds what it found before. */
  lemma SetKeepsStore(s: Store, rec: RunRecord)
    requires s.Valid()
    ensures s.Set(rec.runId, rec).Valid()
    ensures s.Set(rec.runId, rec).Lookup(rec.runId) == Some(rec)
    ensures forall id :: id != rec.runId ==> s.Set(rec.runId, rec).Lookup(id) == s.Lookup(id)
  {
  }

  /** Listing after a store: a new run is appended after all earlier ones;
      a run whose id was already present replaces that entry in place. */
  lemma {:induction false} ValuesAfterSet(s: Store, rec: RunRecord)
    requires s.Valid()
    ensures s.Set(rec.runId, rec).Valid()
    ensures rec.runId !in s.records ==> s.Set(rec.runId, rec).Values() == s.Values() + [rec]
    ensures rec.runId in s.records ==>
              var vs, ws := s.Values(), s.Set(rec.runId, rec).Values();
              |ws| == |vs| &&
              forall i :: 0 <= i < |vs| ==> ws[i] == (if s.order[i] == rec.runId then rec else vs[i])
  {
    SetKeepsStore(s, rec);
    var t := s.Set(rec.runId, rec);
    if rec.runId !in s.records {
      assert t.order == s.order + [rec.runId];
      assert forall i :: 0 <= i < |s.order| ==> t.Values()[i] == s.Values()[i];
      assert t.Values()[|s.order|] == rec;
    }
  }

  /** What `getResults` answers. */
  datatype Results = One(record: RunRecord) | All(records: seq<RunRecord>)

  /** A truthy run id finds exactly its stored record or fails; without one,
      every stored record comes back in insertion order. */
  function QueryResults(s: Store, runId: Value): (r: Result<Results>)
    requires s.Valid()
    ensures Truthy(runId) && runId.Str? && runId.s in s.records ==> r == Ok(One(s.records[runId.s]))
    ensures Truthy(runId) && !(runId.Str? && runId.s in s.records) ==> r == Err(NoResults(runId))
    ensures !Truthy(runId) ==> r.Ok? && r.value.All? && |r.value.records| == |s.order|
    ensures !Truthy(runId) ==> forall i :: 0 <= i < |s.order| ==> r.value.records[i] == s.records[s.order[i]]
  {
    if Truthy(runId) then
      var found := if runId.Str? then s.Lookup(runId.s) else None;
      if found.None? then Err(NoResults(runId)) else Ok(One(found.value))
    else Ok(All(s.Values()))
  }

  /** A run's record can be fetched back by the id the run answered with
      (run ids are never empty, so they always count as given). */
  lemma RecordedRunIsRetrievable(s: Store, rec: RunRecord, now: nat)
    requires s.Valid() && rec.runId == RunIdOf(now)
    ensures var after := s.Set(rec.runId, rec);
            after.Valid() && QueryResults(after, Str(rec.runId)) == Ok(One(rec))
  {
    SetKeepsStore(s, rec);
    assert rec.runId[0] == 'r';
  }

  // ---------------------------------------------------------------------
  // The test-code validator

  const NoStructureWarning: string := "No test structure found (describe/it)"
  const NoCommandsWarning: string := "No common Cypress commands detected"
  const CommonCommands: seq<string> := ["cy.visit", "cy.get", "cy.contains", "cy.click", "cy.type"]

  datatype ValidationReport = ValidationReport(isValid: bool, errors: seq<string>, warnings: seq<string>)

  /** Values that have an `includes` method: strings and arrays. */
  predicate Searchable(code: Value) {
    code.Str? || code.Arr?
  }

  /** `code.includes(needle)`: a substring for a string, an element for an array. */
  predicate Includes(code: Value, needle: string)
    requires Searchable(code)
  {
    if code.Str? then Contains(code.s, needle) else Str(needle) in code.items
  }

  predicate HasStructure(code: Value)
    requires Searchable(code)
  {
    Includes(code, "describe(") || Includes(code, "it(") || Includes(code, "cy.")
  }

  predicate HasCommonCommand(code: Value)
    requires Searchable(code)
  {
    exists i | 0 <= i < |CommonCommands| :: Includes(code, CommonCommands[i])
  }

  /** The code to check: the file's text when a file is named, else the given code. */
  function CodeOf(options: map<string, Value>, host: Host): Result<Value> {
    var testFile := Get(options, "testFile");
    if Truthy(testFile) then
      match host.readFile(testFile)
      case Failed(message) => Err(Thrown(message))
      case Done(text) => Ok(Str(text))
    else Ok(Get(options, "testCode"))
  }

  /** What validating answers. */
  function Validation(options: map<string, Value>, host: Host): Result<ValidationReport> {
    if !Truthy(Get(options, "testFile")) && !Truthy(Get(options, "testCode")) then Err(MissingTestInput)
    else
      match CodeOf(options, host)
      case Err(e) => Err(e)
      case Ok(code) =>
        if !Searchable(code) then Err(NotAFunction("code.includes"))
        else
          Ok(ValidationReport(true, [],
            (if HasStructure(code) then [] else [NoStructureWarning])
            + (if HasCommonCommand(code) then [] else [NoCommandsWarning])))
  }

  /** Validation fails for want of input exactly when neither a file nor
      code is given; whenever it answers, the code is valid with no errors,
      and each of the two warnings appears exactly when its markers are all
      absent, the structure warning first. */
  lemma ValidationWarnings(options: map<string, Value>, host: Host)
    ensures Validation(options, host) == Err(MissingTestInput) <==>
              !Truthy(Get(options, "testFile")) && !Truthy(Get(options, "testCode"))
    ensures var r := Validation(options, host);
            r.Ok? ==> && CodeOf(options, host).Ok?
                      && Searchable(CodeOf(options, host).value)
                      && r.value.isValid && r.value.errors == [] && |r.value.warnings| <= 2
                      && (NoStructureWarning in r.value.warnings <==> !HasStructure(CodeOf(options, host).value))
                      && (NoCommandsWarning in r.value.warnings <==> !HasCommonCommand(CodeOf(options, host).value))
                      && (|r.value.warnings| == 2 ==> r.value.warnings == [NoStructureWarning, NoCommandsWarning])
                      && (forall w | w in r.value.warnings :: w == NoStructureWarning || w == NoCommandsWarning)
    ensures var code := CodeOf(options, host);
            (Truthy(Get(options, "testFile")) || Truthy(Get(options, "testCode"))) && code.Ok? && Searchable(code.value)
            ==> Validation(options, host).Ok?
    ensures var testFile := Get(options, "testFile");
            Truthy(testFile) && host.readFile(testFile).Failed? ==>
              Validation(options, host) == Err(Thrown(host.readFile(testFile).message))
    ensures Truthy(Get(options, "testFile")) && host.readFile(Get(options, "testFile")).Done? ==>
              CodeOf(options, host) == Ok(Str(host.readFile(Get(options, "testFile")).value))
    ensures !Truthy(Get(options, "testFile")) && Truthy(Get(options, "testCode")) && !Searchable(Get(options, "testCode")) ==>
              Validation(options, host) == Err(NotAFunction("code.includes"))
  {
    var r := Validation(options, host);
    if r.Ok? {
      assert NoStructureWarning != NoCommandsWarning;
    }
  }

  /** Code with none of the markers draws both warnings. */
  lemma PlainCodeDrawsWarnings(host: Host)
    ensures var r := Validation(map["testCode" := Str("const x = 1;")], host);
            r.Ok? && r.value.isValid && r.value.errors == [] && |r.value.warnings| == 2
  {
    var code := "const x = 1;";
    assert !Contains(code, "describe(") by { NotContained(code, "describe("); }
    assert !Contains(code, "it(") by { NotContained(code, "it("); }
    assert !Contains(code, "cy.") by { NotContained(code, "cy."); }
    forall i | 0 <= i < |CommonCommands|
      ensures !Contains(code, CommonCommands[i])
    {
      NotContained(code, CommonCommands[i]);
    }
  }

  /** A needle whose first two characters never occur next to each other
      in the text is not in it. */
  lemma NotContained(text: string, needle: string)
    requires |needle| >= 2
    requires forall i :: 0 <= i < |text| - 1 ==> !(text[i] == needle[0] && text[i + 1] == needle[1])
    ensures !Contains(text, needle)
  {
    forall i | 0 <= i <= |text| - |needle|
      ensures !OccursAt(text, needle, i)
    {
      assert text[i..i + |needle|][0] == text[i] && text[i..i + |needle|][1] == text[i + 1];
    }
  }

  // ---------------------------------------------------------------------
  // The test template generator

  datatype GeneratedTest = GeneratedTest(success: bool, testCode: string, outputPath: Value)

  function TestName(options: map<string, Value>): string {
    ToJsString(Or(Get(options, "testName"), Str("Generated Test")))
  }

  /** `'s'`, as the template quotes the suite and test names. */
  function Quoted(s: string): string {
    "'" + s + "'"
  }

  /** The placeholder test: a suite named after the test, one `it` named by
      the description, a comment repeating it and a visit of the root page. */
  function Template(name: string, description: string): string {
    var opening := "describe(" + Quoted(name);
    var middle := ", () => {\n  it(" + Quoted(description) + ", () => {\n    // TODO: Implement test based on: "
                   + description + "\n    ";
    var steps := "cy.visit" + "('/');\n    // Add your test steps here\n  });\n});\n";
    opening + middle + steps
  }

  /** Generating needs a description; the code names the suite and embeds
      the description; it is written out only when a path is given, whose
      write error is the only other failure. */
  function GenerateTest(options: map<string, Value>, host: Host): (r: Result<GeneratedTest>)
    ensures r == Err(MissingDescription) <==> !Truthy(Get(options, "description"))
    ensures Truthy(Get(options, "description")) && !Truthy(Get(options, "outputPath")) ==> r.Ok?
    ensures Truthy(Get(options, "description")) && Truthy(Get(options, "outputPath")) ==>
              var code := Template(TestName(options), ToJsString(Get(options, "description")));
              var written := host.writeFile(Get(options, "outputPath"), code);
              && (written.Done? ==> r == Ok(GeneratedTest(true, code, Get(options, "outputPath"))))
              && (written.Failed? ==> r == Err(Thrown(written.message)))
    ensures r.Ok? ==> && r.value.success
                      && Contains(r.value.testCode, "describe(" + Quoted(TestName(options)))
                      && Contains(r.value.testCode, ToJsString(Get(options, "description")))
                      && r.value.outputPath == (if Truthy(Get(options, "outputPath")) then Get(options, "outputPath") else Null)
  {
    var description := Get(options, "description");
    var outputPath := Get(options, "outputPath");
    if !Truthy(description) then Err(MissingDescription)
    else
      var name := TestName(options);
      var text := ToJsString(description);
      var code := Template(name, text);
      TemplateMentions(name, text);
      var written := if Truthy(outputPath) then host.writeFile(outputPath, code) else Done(());
      match written
      case Failed(message) => Err(Thrown(message))
      case Done(_) => Ok(GeneratedTest(true, code, if Truthy(outputPath) then outputPath else Null))
  }

  lemma TemplateMentions(name: string, description: string)
    ensures Contains(Template(name, description), "describe(" + Quoted(name))
    ensures Contains(Template(name, description), description)
    ensures Contains(Template(name, description), "describe(")
    ensures Contains(Template(name, description), "cy.visit")
  {
    var opening := "describe(" + Quoted(name);
    var lead := ", () => {\n  it(" + Quoted(description) + ", () => {\n    // TODO: Implement test based on: ";
    var middle := lead + description + "\n    ";
    var tail := "('/');\n    // Add your test steps here\n  });\n});\n";
    var steps := "cy.visit" + tail;
    assert Template(name, description) == opening + middle + steps;
    ContainsSelf(opening);
    ContainsLeft(opening, middle, opening);
    ContainsLeft(opening + middle, steps, opening);
    ContainsSelf("describe(");
    ContainsLeft("describe(", Quoted(name), "describe(");
    ContainsLeft(opening, middle, "describe(");
    ContainsLeft(opening + middle, steps, "describe(");
    ContainsSelf(description);
    ContainsRight(lead, description, description);
    ContainsLeft(lead + description, "\n    ", description);
    ContainsRight(opening, middle, description);
    ContainsLeft(opening + middle, steps, description);
    ContainsSelf("cy.visit");
    ContainsLeft("cy.visit", tail, "cy.visit");
    ContainsRight(opening + middle, steps, "cy.visit");
  }

  /** A generated test passes the validator without a warning. */
  lemma GeneratedTestValidatesCleanly(options: map<string, Value>, host: Host, reader: Host)
    requires GenerateTest(options, host).Ok?
    ensures var code := GenerateTest(options, host).value.testCode;
            Validation(map["testCode" := Str(code)], reader) == Ok(ValidationReport(true, [], []))
  {
    var name := TestName(options);
    var text := ToJsString(Get(options, "description"));
    TemplateMentions(name, text);
    var code := Template(name, text);
    assert GenerateTest(options, host).value.testCode == code;
    var args := map["testCode" := Str(code)];
    assert Get(args, "testFile") == Undefined;
    assert Truthy(Str(code));
    assert CodeOf(args, reader) == Ok(Str(code));
    assert HasStructure(Str(code));
    assert Includes(Str(code), CommonCommands[0]);
    assert HasCommonCommand(Str(code));
    assert Get(args, "testCode") == Str(code);
    var empty: seq<string> := [];
    assert empty + empty == [];
    assert Validation(args, reader) == Ok(ValidationReport(true, [], empty + empty));
  }

  // ---------------------------------------------------------------------
  // Screenshot and video scans

  /** `cypressConfig.projectPath || process.cwd()` */
  function ProjectRoot(c: CypressSection, cwd: string): string {
    if c.projectPath.Some? && c.projectPath.value != "" then c.projectPath.value else cwd
  }

  function LowerAscii(ch: char): char {
    if 'A' <= ch <= 'Z' then (ch as int + 32) as char else ch
  }

  /** `name` ends in the lower-case `suffix`, ASCII letters compared without case. */
  predicate EndsWithIgnoringCase(name: string, suffix: string) {
    |name| >= |suffix| && forall i :: 0 <= i < |suffix| ==> LowerAscii(name[|name| - |suffix| + i]) == suffix[i]
  }

  /** `/\.(png|jpg|jpeg)$/i` */
  predicate IsImageName(name: string) {
    EndsWithIgnoringCase(name, ".png") || EndsWithIgnoringCase(name, ".jpg") || EndsWithIgnoringCase(name, ".jpeg")
  }

  /** `/\.mp4$/i` */
  predicate IsVideoName(name: string) {
    EndsWithIgnoringCase(name, ".mp4")
  }

  /** The screenshot filter as written: it passes when either filter is
      absent or when either one matches. */
  predicate ScreenshotKept(e: Entry, runId: Value, testPath: Value) {
    && e.isFile && IsImageName(e.name)
    && (!Truthy(runId) || Contains(e.name, ToJsString(runId))
        || !Truthy(testPath) || Contains(e.name, ToJsString(testPath)))
  }

  predicate VideoKept(e: Entry, runId: Value) {
    e.isFile && IsVideoName(e.name) && (!Truthy(runId) || Contains(e.name, ToJsString(runId)))
  }

  function ArtifactOf(e: Entry, dir: string, root: string, host: Host): Artifact {
    var full := host.join([dir, e.name]);
    Artifact(full, host.relative(root, full), e.size)
  }

  /** The artifacts of the kept entries, in listing order. */
  function Collected(entries: seq<Entry>, keep: Entry -> bool, dir: string, root: string, host: Host): seq<Artifact>
  {
    if entries == [] then []
    else
      var last := entries[|entries| - 1];
      Collected(entries[..|entries| - 1], keep, dir, root, host)
      + (if keep(last) then [ArtifactOf(last, dir, root, host)] else [])
  }

  /** An artifact is collected iff some kept entry yields it. */
  lemma {:induction false} CollectedMembers(entries: seq<Entry>, keep: Entry -> bool, dir: string, root: string,
                                             host: Host, a: Artifact)
    ensures a in Collected(entries, keep, dir, root, host) <==>
              exists j :: 0 <= j < |entries| && keep(entries[j]) && a == ArtifactOf(entries[j], dir, root, host)
  {
    if entries != [] {
      var init := entries[..|entries| - 1];
      CollectedMembers(init, keep, dir, root, host, a);
      assert forall j :: 0 <= j < |init| ==> init[j] == entries[j];
    }
  }

  /** Collecting over two listings one after the other keeps their order. */
  lemma {:induction false} CollectedAppend(xs: seq<Entry>, ys: seq<Entry>, keep: Entry -> bool, dir: string,
                                            root: string, host: Host)
    ensures Collected(xs + ys, keep, dir, root, host)
            == Collected(xs, keep, dir, root, host) + Collected(ys, keep, dir, root, host)
    decreases |ys|
  {
    if ys == [] {
      assert xs + ys == xs;
    } else {
      var init := ys[..|ys| - 1];
      CollectedAppend(xs, init, keep, dir, root, host);
      assert (xs + ys)[..|xs + ys| - 1] == xs + init;
    }
  }

  /** What `getScreenshots` answers: nothing when the directory is
      missing, else the kept image files in listing order. */
  function ScreenshotsFound(c: CypressSection, options: map<string, Value>, host: Host): seq<Artifact> {
    var root := ProjectRoot(c, host.cwd);
    var dir := host.join([root, "cypress", "screenshots"]);
    match host.listDir(dir)
    case None => []
    case Some(entries) =>
      Collected(entries, e => ScreenshotKept(e, Get(options, "runId"), Get(options, "testPath")), dir, root, host)
  }

  /** What `getVideos` answers. */
  function VideosFound(c: CypressSection, options: map<string, Value>, host: Host): seq<Artifact> {
    var root := ProjectRoot(c, host.cwd);
    var dir := host.join([root, "cypress", "videos"]);
    match host.listDir(dir)
    case None => []
    case Some(entries) => Collected(entries, e => VideoKept(e, Get(options, "runId")), dir, root, host)
  }

  /** A screenshot is returned exactly when an image file of the listing
      passes the permissive filter; every screenshot returned is an image
      file of the listing; when no test path is given, every image file is
      returned whatever the run id. */
  lemma ScreenshotsFilter(c: CypressSection, options: map<string, Value>, host: Host, a: Artifact)
    ensures var root := ProjectRoot(c, host.cwd);
            var dir := host.join([root, "cypress", "screenshots"]);
            && (host.listDir(dir).None? ==> ScreenshotsFound(c, options, host) == [])
            && (host.listDir(dir).Some? ==>
                  (a in ScreenshotsFound(c, options, host) <==>
                     exists j :: 0 <= j < |host.listDir(dir).value|
                       && ScreenshotKept(host.listDir(dir).value[j], Get(options, "runId"), Get(options, "testPath"))
                       && a == ArtifactOf(host.listDir(dir).value[j], dir, root, host)))
            && (a in ScreenshotsFound(c, options, host) ==>
                  exists j :: 0 <= j < |host.listDir(dir).value| && host.listDir(dir).value[j].isFile
                    && IsImageName(host.listDir(dir).value[j].name)
                    && a == ArtifactOf(host.listDir(dir).value[j], dir, root, host))
            && (host.listDir(dir).Some? && !Truthy(Get(options, "testPath")) ==>
                  forall j :: (0 <= j < |host.listDir(dir).value| && host.listDir(dir).value[j].isFile
                               && IsImageName(host.listDir(dir).value[j].name)) ==>
                    ArtifactOf(host.listDir(dir).value[j], dir, root, host) in ScreenshotsFound(c, options, host))
  {
    var root := ProjectRoot(c, host.cwd);
    var dir := host.join([root, "cypress", "screenshots"]);
    if host.listDir(dir).Some? {
      var entries := host.listDir(dir).value;
      var keep := e => ScreenshotKept(e, Get(options, "runId"), Get(options, "testPath"));
      CollectedMembers(entries, keep, dir, root, host, a);
      forall j | 0 <= j < |entries| && entries[j].isFile && IsImageName(entries[j].name) && !Truthy(Get(options, "testPath"))
        ensures ArtifactOf(entries[j], dir, root, host) in ScreenshotsFound(c, options, host)
      {
        CollectedMembers(entries, keep, dir, root, host, ArtifactOf(entries[j], dir, root, host));
      }
    }
  }

  /** A video is returned exactly when an `.mp4` file of the listing
      passes the filter: with a run id, every video returned is an `.mp4`
      file whose listed name contains that id, and every such file is
      returned; without one, every `.mp4` file is returned. */
  lemma VideosFilter(c: CypressSection, options: map<string, Value>, host: Host, a: Artifact)
    ensures var root := ProjectRoot(c, host.cwd);
            var dir := host.join([root, "cypress", "videos"]);
            var runId := Get(options, "runId");
            && (host.listDir(dir).None? ==> VideosFound(c, options, host) == [])
            && (host.listDir(dir).Some? ==>
                  (a in VideosFound(c, options, host) <==>
                     exists j :: 0 <= j < |host.listDir(dir).value|
                       && VideoKept(host.listDir(dir).value[j], runId)
                       && a == ArtifactOf(host.listDir(dir).value[j], dir, root, host)))
            && (a in VideosFound(c, options, host) ==>
                  exists j :: 0 <= j < |host.listDir(dir).value| && host.listDir(dir).value[j].isFile
                    && IsVideoName(host.listDir(dir).value[j].name)
                    && (Truthy(runId) ==> Contains(host.listDir(dir).value[j].name, ToJsString(runId)))
                    && a == ArtifactOf(host.listDir(dir).value[j], dir, root, host))
            && (host.listDir(dir).Some? ==>
                  forall j :: (0 <= j < |host.listDir(dir).value| && host.listDir(dir).value[j].isFile
                               && IsVideoName(host.listDir(dir).value[j].name)
                               && (Truthy(runId) ==> Contains(host.listDir(dir).value[j].name, ToJsString(runId)))) ==>
                    ArtifactOf(host.listDir(dir).value[j], dir, root, host) in VideosFound(c, options, host))
  {
    var root := ProjectRoot(c, host.cwd);
    var dir := host.join([root, "cypress", "videos"]);
    if host.listDir(dir).Some? {
      var entries := host.listDir(dir).value;
      var keep := e => VideoKept(e, Get(options, "runId"));
      CollectedMembers(entries, keep, dir, root, host, a);
      forall j | 0 <= j < |entries| && VideoKept(entries[j], Get(options, "runId"))
        ensures ArtifactOf(entries[j], dir, root, host) in VideosFound(c, options, host)
      {
        CollectedMembers(entries, keep, dir, root, host, ArtifactOf(entries[j], dir, root, host));
      }
    }
  }

  // ---------------------------------------------------------------------
  // The handler object and its dispatcher

  /** The answer of a command. */
  datatype Response =
    | Ran(run: RunReport)
    | Opened(open: OpenReport)
    | Validated(validation: ValidationReport)
    | Generated(generated: GeneratedTest)
    | Fetched(results: Results)
    | Screenshots(screenshots: seq<Artifact>)
    | Videos(videos: seq<Artifact>)

  function Lift<T>(r: Result<T>, wrap: T -> Response): Result<Response> {
    match r
    case Ok(v) => Ok(wrap(v))
    case Err(e) => Err(e)
  }

  class CypressHandler {
    /** The configuration manager the handler consults. */
    const config: ConfigManager
    var testResults: Store

    ghost predicate Valid()
      reads this
    {
      config.Valid() && testResults.Valid()
    }

    constructor (config: ConfigManager)
      requires config.Valid()
      ensures Valid() && this.config == config && testResults == EmptyStore()
    {
      this.config := config;
      testResults := EmptyStore();
    }

    /** Gate on the allow-list, then route the command to its handler and
        pass the handler's error on unchanged. */
    method ExecuteCommand(command: string, args: map<string, Value>, host: Host) returns (r: Result<Response>)
      requires Valid()
      modifies this
      ensures Valid()
      ensures !config.IsCommandAllowed(command) ==> r == Err(NotAllowed(command))
      ensures command != "run" || !config.IsCommandAllowed(command) ==> testResults == old(testResults)
      ensures config.IsCommandAllowed(command) && command !in Commands ==> r == Err(UnknownCommand(command))
      ensures config.IsCommandAllowed(command) && command == "run" ==>
                var outcome := RunOutcome(args, config.GetCypressConfig(), host);
                && r == Lift(outcome, v => Ran(v))
                && testResults == (if outcome.Ok? then old(testResults).Set(outcome.value.record.runId, outcome.value.record)
                                   else old(testResults))
      ensures config.IsCommandAllowed(command) && command == "open" ==>
                r == Lift(OpenOutcome(args, config.GetCypressConfig(), host), v => Opened(v))
      ensures config.IsCommandAllowed(command) && command == "validate" ==>
                r == Lift(Validation(args, host), v => Validated(v))
      ensures config.IsCommandAllowed(command) && command == "generate" ==>
                r == Lift(GenerateTest(args, host), v => Generated(v))
      ensures config.IsCommandAllowed(command) && command == "getResults" ==>
                r == Lift(QueryResults(testResults, Get(args, "runId")), v => Fetched(v))
      ensures config.IsCommandAllowed(command) && command == "getScreenshots" ==>
                r == Ok(Screenshots(ScreenshotsFound(config.GetCypressConfig(), args, host)))
      ensures config.IsCommandAllowed(command) && command == "getVideos" ==>
                r == Ok(Videos(VideosFound(config.GetCypressConfig(), args, host)))
    {
      if !config.IsCommandAllowed(command) {
        return Err(NotAllowed(command));
      }
      if command == "run" {
        var run := RunTests(args, host);
        r := Lift(run, v => Ran(v));
      } else if command == "open" {
        var open := OpenCypress(args, host);
        r := Lift(open, v => Opened(v));
      } else if command == "validate" {
        var validation := ValidateTest(args, host);
        r := Lift(validation, v => Validated(v));
      } else if command == "generate" {
        r := Lift(GenerateTest(args, host), v => Generated(v));
      } else if command == "getResults" {
        r := Lift(GetResults(args), v => Fetched(v));
      } else if command == "getScreenshots" {
        var screenshots := GetScreenshots(args, host);
        r := Ok(Screenshots(screenshots));
      } else if command == "getVideos" {
        var videos := GetVideos(args, host);
        r := Ok(Videos(videos));
      } else {
        r := Err(UnknownCommand(command));
      }
    }

    /** Build the run options, hand them to the library, and record its
        result under a run id taken from the clock. */
    method RunTests(options: map<string, Value>, host: Host) returns (r: Result<RunReport>)
      requires Valid()
      modifies this
      ensures Valid()
      ensures r == RunOutcome(options, config.GetCypressConfig(), host)
      ensures r.Ok? ==> testResults == old(testResults).Set(r.value.record.runId, r.value.record)
      ensures r.Err? ==> testResults == old(testResults)
    {
      var c := config.GetCypressConfig();
      var runId := RunIdOf(host.now);
      var runOptions := DropUndefined(RunOptionsLiteral(options, c), RunOptionKeys);
      match host.cypressRun(runOptions) {
        case Failed(message) =>
          r := Err(Thrown(message));
        case Done(result) =>
          var rec := RecordOf(runId, result);
          SetKeepsStore(testResults, rec);
          testResults := testResults.Set(runId, rec);
          r := Ok(RunReport(testResults.Lookup(runId).value, Succeeded(rec)));
      }
    }

    /** Build the interactive runner's options and open it. */
    method OpenCypress(options: map<string, Value>, host: Host) returns (r: Result<OpenReport>)
      ensures r == OpenOutcome(options, config.GetCypressConfig(), host)
    {
      var openOptions := DropUndefined(OpenOptionsLiteral(options, config.GetCypressConfig()), OpenOptionKeys);
      match host.cypressOpen(openOptions) {
        case Failed(message) =>
          r := Err(Thrown(message));
        case Done(_) =>
          r := Ok(OpenReport(true, "Cypress Test Runner opened"));
      }
    }

    /** Read the code and collect the heuristic warnings. */
    method ValidateTest(options: map<string, Value>, host: Host) returns (r: Result<ValidationReport>)
      ensures r == Validation(options, host)
    {
      if !Truthy(Get(options, "testFile")) && !Truthy(Get(options, "testCode")) {
        return Err(MissingTestInput);
      }
      var code := CodeOf(options, host);
      if code.Err? {
        return Err(code.error);
      }
      if !Searchable(code.value) {
        return Err(NotAFunction("code.includes"));
      }
      var warnings: seq<string> := [];
      if !HasStructure(code.value) {
        warnings := warnings + [NoStructureWarning];
      }
      if !HasCommonCommand(code.value) {
        warnings := warnings + [NoCommandsWarning];
      }
      assert warnings == (if HasStructure(code.value) then [] else [NoStructureWarning])
                         + (if HasCommonCommand(code.value) then [] else [NoCommandsWarning]);
      assert CodeOf(options, host) == code;
      r := Ok(ValidationReport(true, [], warnings));
    }

    function GetResults(options: map<string, Value>): Result<Results>
      reads this
      requires Valid()
    {
      QueryResults(testResults, Get(options, "runId"))
    }

    method GetScreenshots(options: map<string, Value>, host: Host) returns (found: seq<Artifact>)
      ensures found == ScreenshotsFound(config.GetCypressConfig(), options, host)
    {
      var root := ProjectRoot(config.GetCypressConfig(), host.cwd);
      var dir := host.join([root, "cypress", "screenshots"]);
      var listing := host.listDir(dir);
      if listing.None? {
        return [];
      }
      var entries := listing.value;
      var runId, testPath := Get(options, "runId"), Get(options, "testPath");
      ghost var keep := e => ScreenshotKept(e, runId, testPath);
      found := [];
      var i := 0;
      while i < |entries|
        invariant 0 <= i <= |entries|
        invariant found == Collected(entries[..i], keep, dir, root, host)
      {
        var file := entries[i];
        if ScreenshotKept(file, runId, testPath) {
          found := found + [ArtifactOf(file, dir, root, host)];
        }
        assert entries[..i + 1][..i] == entries[..i];
        i := i + 1;
      }
      assert entries[..i] == entries;
    }

    method GetVideos(options: map<string, Value>, host: Host) returns (found: seq<Artifact>)
      ensures found == VideosFound(config.GetCypressConfig(), options, host)
    {
      var root := ProjectRoot(config.GetCypressConfig(), host.cwd);
      var dir := host.join([root, "cypress", "videos"]);
      var listing := host.listDir(dir);
      if listing.None? {
        return [];
      }
      var entries := listing.value;
      var runId := Get(options, "runId");
      ghost var keep := e => VideoKept(e, runId);
      found := [];
      var i := 0;
      while i < |entries|
        invariant 0 <= i <= |entries|
        invariant found == Collected(entries[..i], keep, dir, root, host)
      {
        var file := entries[i];
        if VideoKept(file, runId) {
          found := found + [ArtifactOf(file, dir, root, host)];
        }
        assert entries[..i + 1][..i] == entries[..i];
        i := i + 1;
      }
      assert entries[..i] == entries;
    }
  }
}

=== FILE: js_value.dfy ===
/**
 * The slice of JavaScript value semantics that the command handler and the
 * configuration manager rely on: JSON-like values, property reads, the
 * `??` and `||` operators, object spread, string conversion (as done by
 * template literals and `String.prototype.includes`) and substring search.
 */
module Js {

  datatype Option<T> = None | Some(value: T)

  /** A JavaScript value as it can reach the core: from a caller's JSON
      arguments, from a YAML document, or from the test runner library.
      Numbers are modelled as integers. */
  datatype Value =
    | Undefined
    | Null
    | Bool(b: bool)
    | Num(n: int)
    | Str(s: string)
    | Arr(items: seq<Value>)
    | Obj(fields: map<string, Value>)

  /** `obj[key]` on a plain object: a missing key reads as `undefined`. */
  function Get(obj: map<string, Value>, key: string): (v: Value)
    ensures key !in obj ==> v == Undefined
    ensures key in obj ==> v == obj[key]
  {
    if key in obj then obj[key] else Undefined
  }

  /** `v.key` on any value: `None` stands for the TypeError thrown when `v`
      is `null` or `undefined`; strings, numbers, booleans and arrays have no
      own property named by the keys this core reads. */
  function Member(v: Value, key: string): (r: Option<Value>)
    ensures r.None? <==> v.Null? || v.Undefined?
  {
    match v
    case Null => None
    case Undefined => None
    case Obj(m) => Some(Get(m, key))
    case _ => Some(Undefined)
  }

  /** JavaScript truthiness. */
  predicate Truthy(v: Value) {
    match v
    case Undefined => false
    case Null => false
    case Bool(b) => b
    case Num(n) => n != 0
    case Str(s) => s != ""
    case Arr(_) => true
    case Obj(_) => true
  }

  predicate Nullish(v: Value) {
    v.Undefined? || v.Null?
  }

  /** `a ?? b` */
  function Coalesce(a: Value, b: Value): (r: Value)
    ensures Nullish(a) ==> r == b
    ensures !Nullish(a) ==> r == a
  {
    if Nullish(a) then b else a
  }

  /** `a || b` */
  function Or(a: Value, b: Value): (r: Value)
    ensures Truthy(a) ==> r == a
    ensures !Truthy(a) ==> r == b
  {
    if Truthy(a) then a else b
  }

  /** Decimal digits of a natural number, as `String(n)` prints it. */
  function NatToString(n: nat): (r: string)
    ensures |r| >= 1
    ensures forall i :: 0 <= i < |r| ==> '0' <= r[i] <= '9'
    decreases n
  {
    if n < 10 then [DigitChar(n)] else NatToString(n / 10) + [DigitChar(n % 10)]
  }

  function DigitChar(d: nat): (c: char)
    requires d < 10
    ensures '0' <= c <= '9'
  {
    (48 + d) as char
  }

  function IntToString(n: int): string {
    if n < 0 then "-" + NatToString(-n) else NatToString(n)
  }

  /** Distinct numbers print differently. */
  lemma {:induction false} NatToStringInjective(a: nat, b: nat)
    ensures NatToString(a) == NatToString(b) ==> a == b
    decreases a
  {
    var sa, sb := NatToString(a), NatToString(b);
    if a >= 10 && b >= 10 {
      NatToStringInjective(a / 10, b / 10);
      if sa == sb {
        assert sa[..|sa| - 1] == NatToString(a / 10);
        assert sb[..|sb| - 1] == NatToString(b / 10);
        assert DigitChar(a % 10) == sa[|sa| - 1] == sb[|sb| - 1] == DigitChar(b % 10);
      }
    } else if a < 10 && b < 10 {
      if sa == sb {
        assert DigitChar(a) == sa[0] == sb[0] == DigitChar(b);
      }
    }
  }

  /** The string a value converts to (`String(v)`, `${v}`). */
  function ToJsString(v: Value): string
    decreases v
  {
    match v
    case Undefined => "undefined"
    case Null => "null"
    case Bool(b) => if b then "true" else "false"
    case Num(n) => IntToString(n)
    case Str(s) => s
    case Arr(items) =>
      JoinWithCommas(seq(|items|, i requires 0 <= i < |items| =>
        if Nullish(items[i]) then "" else ToJsString(items[i])))
    case Obj(_) => "[object Object]"
  }

  /** `Array.prototype.join` with its default separator. */
  function JoinWithCommas(parts: seq<string>): string {
    if parts == [] then ""
    else if |parts| == 1 then parts[0]
    else JoinWithCommas(parts[..|parts| - 1]) + "," + parts[|parts| - 1]
  }

  /** `s.includes(t)` on strings. */
  predicate Contains(s: string, t: string) {
    exists i | 0 <= i <= |s| - |t| :: OccursAt(s, t, i)
  }

  predicate OccursAt(s: string, t: string, i: int) {
    0 <= i <= |s| - |t| && s[i..i + |t|] == t
  }

  lemma ContainsSelf(t: string)
    ensures Contains(t, t)
  {
    assert OccursAt(t, t, 0);
  }

  /** What a string contains, any extension of it contains. */
  lemma ContainsLeft(a: string, b: string, t: string)
    requires Contains(a, t)
    ensures Contains(a + b, t)
  {
    var i :| 0 <= i <= |a| - |t| && OccursAt(a, t, i);
    assert (a + b)[i..i + |t|] == a[i..i + |t|];
    assert OccursAt(a + b, t, i);
  }

  lemma ContainsRight(a: string, b: string, t: string)
    requires Contains(b, t)
    ensures Contains(a + b, t)
  {
    var i :| 0 <= i <= |b| - |t| && OccursAt(b, t, i);
    assert (a + b)[|a| + i..|a| + i + |t|] == b[i..i + |t|];
    assert OccursAt(a + b, t, |a| + i);
  }

  /** The own enumerable properties of `v` as an object spread `{...v}`
      copies them: an object's fields, the characters or elements of a
      string or array under their indices, nothing for other values. */
  function Spread(v: Value): (m: map<string, Value>)
    ensures v.Obj? ==> m == v.fields
    ensures !v.Obj? && !v.Str? && !v.Arr? ==> m == map[]
  {
    match v
    case Obj(fields) => fields
    case Str(s) => IndexKeyed(seq(|s|, i requires 0 <= i < |s| => Str([s[i]])))
    case Arr(items) => IndexKeyed(items)
    case _ => map[]
  }

  /** Elements under the keys "0", "1", .... */
  function IndexKeyed(xs: seq<Value>): (m: map<string, Value>)
    ensures forall k :: k in m ==> IsDigits(k)
  {
    if xs == [] then map[]
    else IndexKeyed(xs[..|xs| - 1])[NatToString(|xs| - 1) := xs[|xs| - 1]]
  }

  predicate IsDigits(k: string) {
    forall i :: 0 <= i < |k| ==> '0' <= k[i] <= '9'
  }

  /** A string made only of digits is never one of the named keys the
      core reads, so spreading a string or an array contributes none. */
  lemma SpreadNamedKey(v: Value, key: string)
    requires !v.Obj?
    requires key != [] && !('0' <= key[0] <= '9')
    ensures key !in Spread(v)
  {
  }
}
